=== FILE: README.md ===
# Polaris health checking, modelled in Dafny

This project models the health-checking core of the Polaris global server
load balancer (`polaris_health`) and proves properties about it. The
modelled parts are:

- **The deadline-budgeted TCP socket** (`DeadlineSocket`, class `TCPSocket`).
  One timeout is set at creation. Each successful `connect`, `sendall` and
  `recv` uses up part of it. An OSError closes the socket and becomes a
  `ProtocolError`. An SSL error during the TLS handshake does the same, and
  `close` never raises.
- **The TCP monitor** (`TcpMonitor`). Construction validates the port,
  `match_re` and `send_string`. `run` connects, optionally wraps the
  connection in TLS and sends a payload. Then it either passes at once or
  reads chunk by chunk until the pattern matches everything read so far.
- **The external-script monitor** (`ExternalMonitor`). Construction
  validates the script path and the pattern. `run` executes
  `[script_path, dst_ip]` and decides on the timeout, the exit status and
  the pattern, in that order. An OSError from launching the script escapes.
- **The shared pattern validation** (`PatternMatcher`). A pattern is text of
  at most 128 characters that must compile.
- **The health state table** (`HealthState`, class `State`):
  - reading the load-balancer configuration (`_from_config_dict`);
  - the retry counters, the pool and member ids and their lookup tables;
  - the initial probe queue;
  - the `health_converged` test.
- **`instance_to_dict`** (`InstanceDict`), the recursive conversion of
  Python values into plain data.

The operating system, the regular-expression engine, text encoding and
decoding, the clock and the random generator are parameters of the
operations that use them:

- a socket call's outcome is an `OsCall`, `RecvOutcome`, `TlsOutcome` or
  `CloseOutcome`;
- the replies of one TCP `run` are a `Network`;
- a script's result is a `ProcResult`;
- `compile`, `decode`, `encode` and `exec` are functions;
- the clock readings and random draws behind the queue's probe times are a
  `Timing`.

Elapsed times are non-negative reals (`Duration`). A member of the state
table is identified by a `MemberRef` (pool index, member index). The source
instead shares one member object between the pool, the lookup table and
the undetermined list.

## Model

| member | source | states |
|---|---|---|
| Common.OsError.Text | polaris_health/protocols/tcp.py:49 | an OSError is shown as its class name, one space, then its text (the same rendering is used at lines 75 and 85) |
| DeadlineSocket.FamilyFor | polaris_health/protocols/tcp.py:35-38 | IPv6 is chosen exactly when the destination text contains a colon, IPv4 otherwise |
| DeadlineSocket.Decrease | polaris_health/protocols/tcp.py:102-108 | the budget left after an operation is never negative and never more than before; it is `timeout - taken` unless that is negative, and then 0 |
| DeadlineSocket.Decayed | polaris_health/protocols/tcp.py:102-108 | applying the decreases one after another keeps a non-negative budget between 0 and the initial timeout |
| DeadlineSocket.DecayedIsClampedTotal | polaris_health/protocols/tcp.py:102-108 | after successful operations taking t1..tn, the budget is `max(0, T - (t1 + ... + tn))` |
| DeadlineSocket.DecayedNonIncreasing | polaris_health/protocols/tcp.py:102-108 | each further operation leaves the budget non-negative and no larger than before |
| DeadlineSocket.TCPSocket.Valid | polaris_health/protocols/tcp.py:40 | the invariant: the budget is the decayed initial timeout (or the initial timeout without auto_timeout), it is what the OS socket uses, and it is never negative |
| DeadlineSocket.TCPSocket.constructor | polaris_health/protocols/tcp.py:21-40 | keeps ip, port and auto_timeout, picks the address family from the ip, and applies the full timeout to a socket that is open and not yet TLS |
| DeadlineSocket.TCPSocket.SetTimeout | polaris_health/protocols/tcp.py:98-100 | the OS socket's timeout becomes the given value |
| DeadlineSocket.TCPSocket.DecreaseTimeout | polaris_health/protocols/tcp.py:102-108 | with auto_timeout the budget becomes the clamped difference and is applied to the socket; without it the budget is unchanged; the invariant is kept |
| DeadlineSocket.TCPSocket.Connect | polaris_health/protocols/tcp.py:42-50 | on success the elapsed time is charged; on an OSError the socket is closed, the budget is untouched and a ProtocolError with the error's name and text "during socket.connect()" is raised |
| DeadlineSocket.TCPSocket.WrapSsl | polaris_health/protocols/tcp.py:52-66 | never changes the budget; on an SSL error it closes the socket and raises "SSL error: ... during TLS handshake"; any other OSError escapes, and `wrap_ssl` itself does not close the socket |
| DeadlineSocket.TCPSocket.SendAll | polaris_health/protocols/tcp.py:68-76 | on success the payload is delivered and the elapsed time charged; on an OSError the socket is closed, no completed send is recorded, nothing is charged, and the "during socket.sendall()" ProtocolError is raised |
| DeadlineSocket.TCPSocket.Recv | polaris_health/protocols/tcp.py:78-87 | returns the at most 8192 bytes the OS handed back and charges the elapsed time; on an OSError the socket is closed, nothing is charged, and the "during socket.recv()" ProtocolError is raised |
| DeadlineSocket.TCPSocket.Close | polaris_health/protocols/tcp.py:89-96 | never raises; the handle ends closed unless shutdown failed; the budget is untouched |
| DeadlineSocket.ThreeOperations | polaris_health/protocols/tcp.py:42-87 | a connect, a sendall and a recv taking a, b and c seconds leave `max(0, T - (a + b + c))` of a budget T |
| PatternMatcher.NewPattern | polaris_health/monitors/tcp.py:55-70 | None means no pattern; otherwise it is accepted exactly when it is a str of at most 128 characters that compiles, and a non-str or overlong value is rejected before compiling |
| PatternMatcher.LengthBoundary | polaris_health/monitors/tcp.py:59 | the length bound is inclusive: 128 characters pass the length check, 129 are rejected |
| TcpMonitor.New | polaris_health/monitors/tcp.py:24-82 | accepted exactly when the port is an int (a bool counts) in 1..65535, the pattern is valid and send_string is None or a str of at most 256 characters; port errors come first, then pattern errors, then a bad send_string is reported with its value; the payload is the encoded send_string |
| TcpMonitor.ReadFailureShape | polaris_health/monitors/tcp.py:135-148 | the read-loop failure message starts with "remote closed the connection" on a peer close and with "got " or the no-match text on an error; it ends with "no data received from the peer" when nothing was read, and otherwise with the first 512 characters of what was read; it is at most 603 characters on a peer close, and at most 613 plus the error's own text on an error |
| TcpMonitor.ResponseGrows | polaris_health/monitors/tcp.py:153 | the text read so far only grows: the decoded text of the first k replies is a prefix of the text of all of them |
| TcpMonitor.Run | polaris_health/monitors/tcp.py:84-156 | for a monitor that carries a payload exactly when it has a send_string (as `New` builds it): an OSError from creating the socket escapes before anything else; a connect, SSL or send failure fails the run with the socket's message before any recv; a non-SSL handshake error escapes and `wrap_ssl` does not close the socket; with no pattern the run closes and passes without reading; with a pattern it passes exactly when, after some chunk, the decoded text read so far matches; otherwise it fails with the read-failure message, and the socket is released only on a recv error |
| TcpMonitor.ReadUntilMatch | polaris_health/monitors/tcp.py:129-156 | the read loop passes exactly when some prefix of non-empty chunks makes the accumulated text match, stops at the first such chunk and closes the socket; it fails at the first error or empty read, leaving the socket open on a peer close |
| TcpMonitor.NoMatchBefore | polaris_health/monitors/tcp.py:131-149 | when the loop stops on an error or a peer close, no prefix of the replies, of any length, could have matched |
| ExternalMonitor.New | polaris_health/monitors/external.py:20-53 | accepted exactly when the script path is a str and the pattern is valid; the path is checked first |
| ExternalMonitor.StripStart | polaris_health/monitors/external.py:72-73 | the result is a suffix of the text, everything removed is whitespace, and it does not start with whitespace |
| ExternalMonitor.StripEnd | polaris_health/monitors/external.py:72-73 | the result is a prefix of the text, everything removed is whitespace, and it does not end with whitespace |
| ExternalMonitor.Strip | polaris_health/monitors/external.py:72-73 | the result is a slice of the text with only whitespace around it, and it neither starts nor ends with whitespace |
| ExternalMonitor.StripIdempotent | polaris_health/monitors/external.py:72-73 | stripping a stripped text changes nothing |
| ExternalMonitor.IsSpace | polaris_health/monitors/external.py:72-73 | space, tab, newline and carriage return count as whitespace, and no printable ASCII character does |
| ExternalMonitor.Run | polaris_health/monitors/external.py:55-97 | an OSError from launching the script escapes `run`; a timeout fails with the timeout; otherwise a non-zero exit fails with the code and the stripped stderr; otherwise with a pattern the run passes exactly when the pattern is found in the stripped stdout, and without one it passes; success carries the stripped stdout |
| ExternalMonitor.ExitStatusFirst | polaris_health/monitors/external.py:84-88 | a non-zero exit decides the run whatever the script printed on stdout and whatever the pattern is |
| ExternalMonitor.OnlyThatCommand | polaris_health/monitors/external.py:68-71 | the run depends on the operating system only through the result of the one command `[script_path, dst_ip]` |
| ExternalMonitor.Message | polaris_health/monitors/external.py:76-93 | the kind of failure can be read off the message: it starts with "external script timed out" exactly for a timeout, with "external script failed" exactly for a non-zero exit, and with "failed to match regexp" exactly for a missed pattern |
| ExternalMonitor.MessageShape | polaris_health/monitors/external.py:76-88 | a non-zero exit message ends with the stripped stderr; a timeout message starts with "external script timed out" |
| HealthState.BuildGlobalNames | polaris_health/state/__init__.py:153-175 | succeeds exactly when every global name has a 'pool' that names a configured pool, and keeps each name with its pool in order; otherwise reports the first bad entry, as a missing 'pool' or as an unknown pool |
| HealthState.FromConfigDict | polaris_health/state/__init__.py:121-180 | missing or empty pools are rejected first, then missing or empty global names, then the first global name that does not resolve; an accepted configuration keeps every pool's name, members and retries, and every global name with its pool |
| HealthState.AcceptedNamesResolve | polaris_health/state/__init__.py:171-175 | in an accepted configuration every global name refers to one of the pools |
| HealthState.ItemLess | polaris_health/state/__init__.py:30-31 | an item comes before another only when their member ids differ |
| HealthState.EntryLess | polaris_health/state/__init__.py:77-79 | an entry with an earlier probe time always comes first, and no entry comes before one whose probe time is earlier |
| HealthState.EntryOrderIsStrictTotal | polaris_health/state/__init__.py:30-31 | queue tuples compare by probe time and then by member id alone; with distinct member ids this order is strict, total and transitive |
| HealthState.Refs | polaris_health/state/__init__.py:50-55 | the walk over all members, pool by pool, has one entry per member |
| HealthState.RefsAt | polaris_health/state/__init__.py:57-66 | member j of pool p is entry `(members before pool p) + j` of the walk |
| HealthState.RefsValid | polaris_health/state/__init__.py:57-66 | every entry of the walk names an existing member, at the position the walk gives it |
| HealthState.RefsAreMembers | polaris_health/state/__init__.py:50-55 | every entry of the undetermined list names an existing member |
| HealthState.RetriedAll | polaris_health/state/__init__.py:45-48 | the retries walk yields one pool for each pool it is given |
| HealthState.Retried | polaris_health/state/__init__.py:46-48 | setting retries keeps a pool's name, retry count, id and number of members |
| HealthState.NumberedAll | polaris_health/state/__init__.py:57-66 | the numbering walk yields one pool for each pool it is given |
| HealthState.Numbered | polaris_health/state/__init__.py:61-66 | numbering keeps a pool's name, retry count and number of members |
| HealthState.Initialized | polaris_health/state/__init__.py:41-66 | initialisation keeps the number of pools |
| HealthState.InitializedKeepsConfig | polaris_health/state/__init__.py:45-48 | after initialisation pool p has id p and keeps its name, and every member's retries_left is its pool's retry count, with its address and status kept |
| HealthState.MemberIdRoundTrip | polaris_health/state/__init__.py:64-66 | looking up a member's id in the member table finds that same member |
| HealthState.MemberByIdIsDense | polaris_health/state/__init__.py:64-66 | ids are exactly 0..M-1: position k of the member table names an existing member whose id is k |
| HealthState.ProbeTime | polaris_health/state/__init__.py:75-76 | a probe time lies between the clock reading and that reading plus the 2-second dispersion window |
| HealthState.InitialQueue | polaris_health/state/__init__.py:70-79 | the queue has one entry per member |
| HealthState.InitialQueueEntry | polaris_health/state/__init__.py:70-79 | entry k carries the pool id and member id of the k-th member, at a probe time between the k-th clock reading and that reading plus the dispersion window, and the queue order decides between it and any other entry |
| HealthState.NumberedAllNumbering | polaris_health/state/__init__.py:59-66 | after the numbering walk every pool and member carries the id the walk gives it, and the member table names each member at its id |
| HealthState.State.constructor | polaris_health/state/__init__.py:41-79 | pools are initialised; the undetermined list holds every member; pool ids form the identity table; the member table lists the members in walk order; the queue holds one entry per member, in push order |
| HealthState.State.BuildTables | polaris_health/state/__init__.py:45-66 | the retries, undetermined-list and numbering walks together give the initialised pools, the full undetermined list and the lookup tables |
| HealthState.State.SetRetries | polaris_health/state/__init__.py:45-48 | every member's retries_left becomes its pool's retry count, and nothing else about the pools changes |
| HealthState.State.ListMembers | polaris_health/state/__init__.py:50-55 | the undetermined list becomes every member, pool by pool and in member order |
| HealthState.State.NumberPoolsAndMembers | polaris_health/state/__init__.py:57-66 | pool p gets id p and is entry p of the pool table; members get consecutive ids across pools and the member table names each at its id |
| HealthState.State.NumberMembers | polaris_health/state/__init__.py:64-66 | a pool's members get the next free ids in order and are appended to the member table |
| HealthState.State.FillQueue | polaris_health/state/__init__.py:68-79 | the queue gets one entry per member, in walk order, with the member's pool id and member id |
| HealthState.State.PushMembers | polaris_health/state/__init__.py:71-79 | a pool's members are pushed in order, each with the pool's id and its own id |
| HealthState.State.HealthConverged | polaris_health/state/__init__.py:81-96 | answers True exactly when every member of the old undetermined list has a status; the list becomes a suffix of itself with only determined members dropped, and it is left empty or headed by an undetermined member |
| HealthState.Create | polaris_health/state/__init__.py:41-43 | a rejected configuration raises its configuration error; an accepted one yields a fresh state with the initialised pools |
| HealthState.ConvergenceIsStable | polaris_health/state/__init__.py:87-88 | once health_converged has answered True, the next call answers True too |
| InstanceDict.Visible | polaris_health/util/__init__.py:31-34 | the keys kept are exactly the attribute names that are not private when ignore_private is set, or all of them otherwise, as str keys; without ignore_private every attribute is kept; kept values that were plain stay plain |
| InstanceDict.VisibleFrom | polaris_health/util/__init__.py:31-34 | every entry kept is a kept attribute of the object, its name as a str key and its value unchanged |
| InstanceDict.VisibleAll | polaris_health/util/__init__.py:31-34 | without ignore_private, entry i is attribute i |
| InstanceDict.VisibleConcat | polaris_health/util/__init__.py:31-34 | filtering the attributes `a + b` gives the filtered `a` followed by the filtered `b`, so the attribute order is kept |
| InstanceDict.ObjectToDict | polaris_health/util/__init__.py:29-38 | an object becomes plain dict data whose keys are exactly its kept attribute names; each entry is a kept attribute with its value converted; without ignore_private, entry i is attribute i converted |
| InstanceDict.ObjectSingle | polaris_health/util/__init__.py:31-34 | an object with one attribute becomes a dict with exactly that attribute, its value converted, or an empty dict when ignore_private drops it |
| InstanceDict.ObjectKeepsOrder | polaris_health/util/__init__.py:31-34 | converting an object with attributes `a + b` gives the entries of `a` followed by those of `b` |
| InstanceDict.ToDict | polaris_health/util/__init__.py:4-38 | the result is plain data; primitives are unchanged; a dict keeps each key at its position with its value converted; a list or tuple becomes a list of its elements converted, in order; an object becomes its `ObjectToDict`; a value without `__dict__` becomes its str text |
| InstanceDict.PlainIsFixed | polaris_health/util/__init__.py:14-27 | converting plain data returns it unchanged |
| InstanceDict.ToDictIdempotent | polaris_health/util/__init__.py:4-38 | converting a second time returns an equal value |
| InstanceDict.IgnorePrivateDropsOnlyPrivate | polaris_health/util/__init__.py:32-34 | with ignore_private an attribute name is kept exactly when it does not start with "_"; without it every attribute is kept |

## Left out

- Real sockets, TLS and subprocesses are not modelled. Their outcomes are parameters of the operations.
- The TLS context is not modelled. This covers building it and the certificate-verification toggle of the TCP monitor, which only configures a library object.
- The regular-expression engine, `str.encode` and `bytes.decode(errors='ignore')` are parameters. Decoding is applied to each chunk on its own, as the source does.
- Logging is left out because it does not affect control flow. That includes the success log of the external monitor.
- The monotonic clock is not modelled: elapsed times are inputs. The timeout is a real number, so float rounding is not modelled.
- Negative or None timeouts are not modelled: `Duration` is never negative. The validation done by `BaseMonitor` is not part of this model.
- `DeadlineSocket.TCPSocket.Close` does not model the logged warning text.
- `DeadlineSocket.TCPSocket.Close` does not model whether closing the handle after a failed `shutdown` would have succeeded.
- `DeadlineSocket.TCPSocket.Recv`: the bound of 8192 bytes per read is the operating system's guarantee for `recv(8192)`, written into the `Chunk` type.
- `TcpMonitor.Run`: when the peer's replies run out, the model treats the next read as the OS timeout (`TimeoutError`). The real socket raises it once a positive budget is spent. A budget already clamped to 0 makes the socket non-blocking instead (`settimeout(0)`), and its recv then raises `BlockingIOError` at once. The model does not tell these apart. Both end the loop through the same `ProtocolError` path, but the message differs in the error's name and its text: the model always reports `TimeoutError timed out`, while a non-blocking recv reports `BlockingIOError` with `[Errno 11] Resource temporarily unavailable`. On a TLS socket a timeout reads "The read operation timed out", and with a zero budget recv raises `ssl.SSLWantReadError` instead.
- `TcpMonitor.Run`: the replies are a finite sequence, so a peer that keeps sending non-matching data for ever is not modelled, and the model's read loop always ends. In the source the budget does not bound such a peer: once the budget is clamped to 0 the socket is non-blocking, and a recv that finds data waiting returns it instead of raising, so `while True` can go on without end while the response text grows.
- `TcpMonitor.Run`: a non-SSL OSError during the TLS handshake escapes `run` uncaught. The model returns it as `Escaped`. `wrap_ssl` itself does not close the socket then; what the ssl library does to the handle is not modelled.
- `DeadlineSocket.TCPSocket.constructor` models only a successful socket creation. A failing `socket.socket(...)` is modelled in `TcpMonitor.Run`, whose `Network` says whether creation fails; its OSError escapes `run`.
- `ExternalMonitor.Run`: an OSError from launching the script (a missing or non-executable file) escapes `run` uncaught. The model returns it as `Escaped`.
- `ExternalMonitor.Run`: the `CalledProcessError` branch is unreachable because the process runs without `check=True`, so it is not modelled.
- `ExternalMonitor.Message` does not model how Python renders the timeout number, which is a parameter `show`.
- `ExternalMonitor.Run`: text decoding errors of the captured output are not modelled.
- `HealthState.BuildGlobalNames`: every global-name entry is taken to be a dict, and its 'pool' value to be hashable. An entry that is not a dict (None, or a str, which passes the `'pool' in` test by substring), or an unhashable 'pool' value such as a list, makes the source raise `TypeError`. Those paths are not modelled: `GlobalNameSpec` cannot express a non-dict entry, and an unhashable value is reported as `UnknownPool`.
- `HealthState.FromConfigDict`: passes on `BuildGlobalNames`' result, so the same `TypeError` inputs are not modelled there either.
- `DeadlineSocket.TCPSocket.SendAll`: `sendall` may send part of the payload before it raises, and the caller cannot learn how much. That partial send is not modelled; `delivered` logs only sends that completed.
- `InstanceDict.ToDict`: the attribute names of an `Obj` are not forced to be distinct. A `__dict__` never repeats a key, so an object with repeated names has no Python counterpart. For such an object the converted dict would repeat keys.
- `Pool.from_config_dict`, `GlobalName.from_config_dict` and their validation are not part of this model. A pool is its name, its members and its monitor's retry count.
- The duplicate-name checks in `_from_config_dict` are left out. They can never fire because dict keys are distinct, which the `Dict` type states.
- `State.to_dist_dict` is not part of this model. It formats pools and global names for the DNS side and stamps them with `time.time()`.
- `HealthState.State.constructor` keeps the probe queue in push order. The layout of the binary heap built by `heapq.heappush` is not modelled. What is modelled is the tuple order the heap uses (`EntryOrderIsStrictTotal`) and one entry per member.
- `HealthState.State.constructor` takes the k-th push's `time.monotonic()` reading and `random.uniform(0, 2)` draw from a `Timing` parameter. The clock and the random generator themselves are not modelled; the draw's range is its type `Spread`.
- Object identity is not modelled: members shared between the pools, the lookup table and the undetermined list are `MemberRef`s. A status update made through one of them is therefore seen by all.
- `InstanceDict.ToDict` does not convert dict keys, as the source does not. Reference cycles, which make the source recurse without end, cannot be expressed in the datatype.
- `InstanceDict.ToDict` converts the private attributes it then drops. This cannot be observed, because the conversion is pure.

=== FILE: common.dfy ===
/** Types shared by the health-check modules: optional values and results,
    bytes, operating-system errors, durations and untyped configuration values. */
module Common {

  datatype Option<+T> = None | Some(value: T)

  datatype Result<+T, +E> = Ok(value: T) | Err(error: E)

  newtype byte = b: int | 0 <= b < 256

  /** A length of time in seconds, as the difference of two readings of a
      monotonic clock: never negative. */
  type Duration = r: real | r >= 0.0

  /** An OSError raised by a socket call: the exception's class name
      (`ConnectionRefusedError`, `TimeoutError`, ...) and its text. */
  datatype OsError = OsError(name: string, detail: string)
  {
    /** The rendering `'{} {}'.format(e.__class__.__name__, e)`: the class
        name, a space, then the error's text. */
    function Text(): (r: string)
      ensures |r| == |name| + 1 + |detail|
      ensures r[..|name|] == name && r[|name|] == ' ' && r[|name| + 1..] == detail
    {
      name + " " + detail
    }
  }

  /** A configuration value as Python sees it: a `bool` is also an `int`
      (True counts as 1), a `str`, `None`, or anything else. */
  datatype ConfigValue = VInt(i: int) | VBool(b: bool) | VStr(s: string) | VNone | VOther
  {
    /** `isinstance(v, int)`: true for ints and for bools. */
    predicate IsInt()
    {
      VInt? || VBool?
    }

    /** The integer a value that `IsInt()` stands for. */
    function AsInt(): int
      requires IsInt()
    {
      if VInt? then i else if b then 1 else 0
    }
  }

  /** The settings every monitor receives from its base class: probe
      interval, timeout in seconds and retry count (validated by the base
      class, which is not part of this model). */
  datatype BaseConfig = BaseConfig(interval: real, timeout: Duration, retries: int)

  function Min(a: int, b: int): int
  {
    if a <= b then a else b
  }

  /** The first `n` characters of `s`, as Python's `s[:n]`. */
  function Take(s: string, n: nat): (r: string)
    ensures |r| == Min(|s|, n) && r <= s
  {
    s[..Min(|s|, n)]
  }

  predicate IsPrefix(p: string, s: string)
  {
    |p| <= |s| && s[..|p|] == p
  }

  predicate IsSuffix(p: string, s: string)
  {
    |p| <= |s| && s[|s| - |p|..] == p
  }

  /** Decimal rendering of a natural number, as Python's `str(n)`. */
  function NatToString(n: nat): (r: string)
    ensures |r| > 0
    ensures forall i :: 0 <= i < |r| ==> '0' <= r[i] <= '9'
    decreases n
  {
    var d := [(48 + n % 10) as char];
    if n < 10 then d else NatToString(n / 10) + d
  }

  /** Decimal rendering of an integer, as Python's `str(i)`. */
  function IntToString(i: int): (r: string)
    ensures |r| > 0
    ensures (r[0] == '-') <==> i < 0
  {
    if i < 0 then "-" + NatToString(-i) else NatToString(i)
  }
}

=== FILE: deadline_socket.dfy ===
/** The deadline-budgeted TCP socket (`TCPSocket`): one connection, optionally
    wrapped in TLS, whose single timeout is consumed by every successful
    connect, sendall and recv.  What the operating system does on each call
    (success after some elapsed time, or an OSError) is a parameter. */
module DeadlineSocket {
  import opened Common

  /** The most bytes one `recv` asks the operating system for. */
  const RECV_BUFF_SIZE: nat := 8192

  /** What one `recv(RECV_BUFF_SIZE)` can hand back: at most that many bytes. */
  type Chunk = s: seq<byte> | |s| <= RECV_BUFF_SIZE

  datatype Family = Inet | Inet6

  /** The outcome of a blocking connect or sendall on the OS socket. */
  datatype OsCall = Done(took: Duration) | Fails(e: OsError)

  /** The outcome of a blocking recv: the bytes handed back (empty when the
      peer closed the connection) or an OSError, a timeout included. */
  datatype RecvOutcome = Received(data: Chunk, took: Duration) | RecvFails(e: OsError)

  /** The outcome of the TLS handshake: done, an `ssl.SSLError`, or another
      OSError (a handshake timeout or a reset), which `wrap_ssl` does not catch. */
  datatype TlsOutcome = Handshaken | SslFails(detail: string) | OtherOsFails(e: OsError)

  /** The outcome of the best-effort close: clean, `shutdown` failing (the
      handle's own `close` is then skipped), or `close` failing (the handle
      is released all the same). */
  datatype CloseOutcome = Closes | ShutdownFails(e: OsError) | CloseFails(e: OsError)

  /** An exception leaving a socket operation. */
  datatype Raised = ProtocolError(msg: string) | UncaughtOsError(e: OsError)

  /** Address family from the destination text: IPv6 when it holds a colon. */
  function FamilyFor(ip: string): (f: Family)
    ensures f == Inet6 <==> exists i :: 0 <= i < |ip| && ip[i] == ':'
  {
    if ':' in ip then Inet6 else Inet
  }

  function Max0(x: real): real
  {
    if x < 0.0 then 0.0 else x
  }

  /** The budget left after an operation that took `taken` seconds. */
  function Decrease(timeout: real, taken: Duration): (r: real)
    ensures r >= 0.0
    ensures timeout >= 0.0 ==> r <= timeout
    ensures r == 0.0 || r == timeout - taken
    ensures timeout - taken >= 0.0 ==> r == timeout - taken
  {
    var t := timeout - taken;
    if t < 0.0 then 0.0 else t
  }

  /** Total of a sequence of durations. */
  function Sum(ts: seq<Duration>): (r: real)
    ensures r >= 0.0
  {
    if ts == [] then 0.0 else Sum(ts[..|ts| - 1]) + ts[|ts| - 1]
  }

  /** The budget left from `initial` after operations taking `ts`, applied
      one after another as the socket does. */
  function Decayed(initial: real, ts: seq<Duration>): (r: real)
    ensures initial >= 0.0 ==> 0.0 <= r <= initial
  {
    if ts == [] then initial else Decrease(Decayed(initial, ts[..|ts| - 1]), ts[|ts| - 1])
  }

  /** Decreasing step by step and clamping each time ends where one clamp
      of the total would: `max(0, T - (t1 + ... + tn))`. */
  lemma {:induction false} DecayedIsClampedTotal(initial: Duration, ts: seq<Duration>)
    ensures Decayed(initial, ts) == Max0(initial - Sum(ts))
    decreases |ts|
  {
    if ts != [] {
      DecayedIsClampedTotal(initial, ts[..|ts| - 1]);
    }
  }

  /** The budget never grows and never goes below zero as operations are added. */
  lemma {:induction false} DecayedNonIncreasing(initial: Duration, ts: seq<Duration>, t: Duration)
    ensures 0.0 <= Decayed(initial, ts + [t]) <= Decayed(initial, ts)
  {
    assert (ts + [t])[..|ts|] == ts;
    DecayedIsClampedTotal(initial, ts);
  }

  class TCPSocket {
    const ip: string
    const port: int
    const autoTimeout: bool
    const family: Family
    /** The remaining budget, in seconds. */
    var timeout: real
    /** The timeout last applied to the OS socket with `settimeout`. */
    var applied: real
    /** True once the socket was wrapped in TLS. */
    var tls: bool
    /** True once this class closed the OS handle (what the ssl library
        does to the handle on a failed handshake is not modelled). */
    var closed: bool

    ghost const initial: Duration
    /** How long each budget-consuming operation took, in order. */
    ghost var spent: seq<Duration>
    /** The payloads of the sendall calls that completed. */
    ghost var delivered: seq<seq<byte>>
    /** How many times recv was called. */
    ghost var recvCalls: nat

    /** The budget is the configured timeout decreased by each completed
        operation (or left alone without `autoTimeout`), and it is the value
        the OS socket currently uses. */
    ghost predicate Valid()
      reads this
      ensures Valid() ==> timeout >= 0.0
    {
      && timeout == (if autoTimeout then Decayed(initial, spent) else initial)
      && applied == timeout
    }

    constructor (ip: string, port: int, timeout: Duration, autoTimeout: bool)
      ensures Valid()
      ensures this.ip == ip && this.port == port && this.autoTimeout == autoTimeout
      ensures family == FamilyFor(ip)
      ensures this.timeout == timeout && initial == timeout
      ensures !tls && !closed
      ensures spent == [] && delivered == [] && recvCalls == 0
    {
      this.ip := ip;
      this.port := port;
      this.autoTimeout := autoTimeout;
      family := if ':' in ip then Inet6 else Inet;
      this.timeout := timeout;
      initial := timeout;
      tls := false;
      closed := false;
      spent := [];
      delivered := [];
      recvCalls := 0;
      new;
      SetTimeout(timeout);
    }

    method SetTimeout(t: real)
      modifies this`applied
      ensures applied == t
    {
      applied := t;
    }

    /** Charges an operation's elapsed time against the budget. */
    method DecreaseTimeout(taken: Duration)
      requires Valid()
      modifies this`timeout, this`applied, this`spent
      ensures Valid()
      ensures timeout == if autoTimeout then Decrease(old(timeout), taken) else old(timeout)
      ensures spent == old(spent) + [taken]
    {
      spent := spent + [taken];
      assert spent[..|spent| - 1] == old(spent);
      if autoTimeout {
        timeout := timeout - taken;
        if timeout < 0.0 {
          timeout := 0.0;
        }
        SetTimeout(timeout);
      }
    }

    method Connect(outcome: OsCall) returns (r: Option<Raised>)
      requires Valid()
      modifies this
      ensures Valid()
      ensures tls == old(tls) && delivered == old(delivered) && recvCalls == old(recvCalls)
      ensures outcome.Done? ==> r == None && closed == old(closed) && spent == old(spent) + [outcome.took]
      ensures outcome.Done? ==> timeout == if autoTimeout then Decrease(old(timeout), outcome.took) else old(timeout)
      ensures outcome.Fails? ==> r == Some(ProtocolError(outcome.e.Text() + " during socket.connect()"))
      ensures outcome.Fails? ==> closed && timeout == old(timeout) && spent == old(spent)
    {
      match outcome
      case Fails(e) =>
        closed := true;
        return Some(ProtocolError(e.Text() + " during socket.connect()"));
      case Done(took) =>
        DecreaseTimeout(took);
        return None;
    }

    /** Wraps the socket in TLS; the budget is not charged for the handshake.
        Only an SSL error makes `wrap_ssl` close the socket itself. */
    method WrapSsl(outcome: TlsOutcome) returns (r: Option<Raised>)
      requires Valid()
      modifies this
      ensures Valid()
      ensures timeout == old(timeout) && spent == old(spent)
      ensures delivered == old(delivered) && recvCalls == old(recvCalls)
      ensures outcome.Handshaken? ==> r == None && tls && closed == old(closed)
      ensures outcome.SslFails? ==> r == Some(ProtocolError("SSL error: " + outcome.detail + " during TLS handshake"))
      ensures outcome.SslFails? ==> closed && tls == old(tls)
      ensures outcome.OtherOsFails? ==> r == Some(UncaughtOsError(outcome.e))
      ensures outcome.OtherOsFails? ==> closed == old(closed) && tls == old(tls)
    {
      match outcome
      case Handshaken =>
        tls := true;
        return None;
      case SslFails(detail) =>
        closed := true;
        return Some(ProtocolError("SSL error: " + detail + " during TLS handshake"));
      case OtherOsFails(e) =>
        return Some(UncaughtOsError(e));
    }

    method SendAll(data: seq<byte>, outcome: OsCall) returns (r: Option<Raised>)
      requires Valid()
      modifies this
      ensures Valid()
      ensures tls == old(tls) && recvCalls == old(recvCalls)
      ensures outcome.Done? ==> r == None && closed == old(closed) && spent == old(spent) + [outcome.took]
      ensures outcome.Done? ==> timeout == if autoTimeout then Decrease(old(timeout), outcome.took) else old(timeout)
      ensures outcome.Done? ==> delivered == old(delivered) + [data]
      ensures outcome.Fails? ==> r == Some(ProtocolError(outcome.e.Text() + " during socket.sendall()"))
      ensures outcome.Fails? ==> closed && timeout == old(timeout) && spent == old(spent) && delivered == old(delivered)
    {
      match outcome
      case Fails(e) =>
        closed := true;
        return Some(ProtocolError(e.Text() + " during socket.sendall()"));
      case Done(took) =>
        delivered := delivered + [data];
        DecreaseTimeout(took);
        return None;
    }

    /** Reads at most RECV_BUFF_SIZE bytes; empty bytes mean the peer closed. */
    method Recv(outcome: RecvOutcome) returns (r: Result<Chunk, Raised>)
      requires Valid()
      modifies this
      ensures Valid()
      ensures tls == old(tls) && delivered == old(delivered) && recvCalls == old(recvCalls) + 1
      ensures outcome.Received? ==> r == Ok(outcome.data) && closed == old(closed)
      ensures outcome.Received? ==> spent == old(spent) + [outcome.took]
      ensures outcome.Received? ==> timeout == if autoTimeout then Decrease(old(timeout), outcome.took) else old(timeout)
      ensures outcome.RecvFails? ==> r == Err(ProtocolError(outcome.e.Text() + " during socket.recv()"))
      ensures outcome.RecvFails? ==> closed && timeout == old(timeout) && spent == old(spent)
    {
      recvCalls := recvCalls + 1;
      match outcome
      case RecvFails(e) =>
        closed := true;
        return Err(ProtocolError(e.Text() + " during socket.recv()"));
      case Received(data, took) =>
        DecreaseTimeout(took);
        return Ok(data);
    }

    /** Shuts the connection down and closes the handle; never raises. */
    method Close(outcome: CloseOutcome)
      requires Valid()
      modifies this`closed
      ensures Valid()
      ensures closed == (old(closed) || !outcome.ShutdownFails?)
    {
      if !outcome.ShutdownFails? {
        closed := true;
      }
    }
  }

  /** A client of the socket: successful operations taking `a`, `b` and `c`
      seconds leave `max(0, T - (a + b + c))` of a budget `T`. */
  method ThreeOperations(ip: string, t: Duration, a: Duration, b: Duration, c: Duration) returns (left: real)
    ensures left == Max0(t - (a + b + c))
  {
    var s := new TCPSocket(ip, 80, t, true);
    var r1 := s.Connect(Done(a));
    var r2 := s.SendAll([], Done(b));
    var r3 := s.Recv(Received([], c));
    assert s.spent == [a, b, c];
    DecayedIsClampedTotal(t, s.spent);
    assert Sum([a, b, c]) == a + b + c by {
      assert [a, b, c][..2] == [a, b];
      assert [a, b][..1] == [a];
      assert [a][..0] == [];
      assert Sum([a]) == a;
      assert Sum([a, b]) == a + b;
    }
    left := s.timeout;
  }
}

=== FILE: external_monitor.dfy ===
/** The external-script monitor (`ExternalScript`): validated construction,
    and `run`, which executes the script with the destination as its only
    argument and decides on the captured result: a timeout fails, then a
    non-zero exit status fails, then the optional pattern must be found in
    the stripped standard output. */
module ExternalMonitor {
  import opened Common
  import opened PatternMatcher

  /** A validated external-script monitor. */
  datatype Monitor = Monitor(scriptPath: string, pattern: Option<Pattern>, base: BaseConfig)

  datatype ConfigError = ScriptPathInvalid(value: ConfigValue) | MatchReInvalid(e: PatternError)

  /** `ExternalScript.__init__`: the script path must be a str, then
      `match_re` is validated. */
  function New(scriptPath: ConfigValue, matchRe: ConfigValue, base: BaseConfig,
               compile: string -> Option<string -> bool>): (r: Result<Monitor, ConfigError>)
    ensures r.Ok? <==> scriptPath.VStr? && NewPattern(matchRe, compile).Ok?
    ensures !scriptPath.VStr? ==> r == Err(ScriptPathInvalid(scriptPath))
    ensures scriptPath.VStr? && NewPattern(matchRe, compile).Err? ==> r == Err(MatchReInvalid(NewPattern(matchRe, compile).error))
    ensures r.Ok? ==> r.value == Monitor(scriptPath.s, NewPattern(matchRe, compile).value, base)
  {
    if !scriptPath.VStr? then Err(ScriptPathInvalid(scriptPath))
    else match NewPattern(matchRe, compile)
      case Err(e) => Err(MatchReInvalid(e))
      case Ok(pattern) => Ok(Monitor(scriptPath.s, pattern, base))
  }

  /** Python's `str.isspace()` characters, the ones `str.strip()` removes. */
  predicate IsSpace(c: char)
    ensures c == ' ' || c == '\t' || c == '\n' || c == '\r' ==> IsSpace(c)
    ensures '!' <= c <= '~' ==> !IsSpace(c)
  {
    var n := c as int;
    || (9 <= n <= 13) || (28 <= n <= 32) || n == 0x85 || n == 0xA0 || n == 0x1680
    || (0x2000 <= n <= 0x200A) || n == 0x2028 || n == 0x2029 || n == 0x202F || n == 0x205F || n == 0x3000
  }

  /** `s` with its leading whitespace removed. */
  function StripStart(s: string): (r: string)
    ensures |r| <= |s| && r == s[|s| - |r|..]
    ensures forall k :: 0 <= k < |s| - |r| ==> IsSpace(s[k])
    ensures r == [] || !IsSpace(r[0])
    decreases |s|
  {
    if s != [] && IsSpace(s[0]) then StripStart(s[1..]) else s
  }

  /** `s` with its trailing whitespace removed. */
  function StripEnd(s: string): (r: string)
    ensures |r| <= |s| && r == s[..|r|]
    ensures forall k :: |r| <= k < |s| ==> IsSpace(s[k])
    ensures r == [] || !IsSpace(r[|r| - 1])
    decreases |s|
  {
    if s != [] && IsSpace(s[|s| - 1]) then StripEnd(s[..|s| - 1]) else s
  }

  /** `r` is the slice of `s` starting at `i`, and everything of `s` before
      and after it is whitespace. */
  predicate SliceInSpace(s: string, i: nat, r: string)
  {
    && i + |r| <= |s| && r == s[i..i + |r|]
    && (forall k :: 0 <= k < i ==> IsSpace(s[k]))
    && (forall k :: i + |r| <= k < |s| ==> IsSpace(s[k]))
  }

  /** `str.strip()`: the slice of `s` left once the whitespace at both ends
      is removed; it neither starts nor ends with whitespace. */
  function Strip(s: string): (r: string)
    ensures exists i: nat :: SliceInSpace(s, i, r)
    ensures r == [] || (!IsSpace(r[0]) && !IsSpace(r[|r| - 1]))
  {
    var t := StripStart(s);
    var r := StripEnd(t);
    var i := |s| - |t|;
    assert SliceInSpace(s, i, r);
    r
  }

  /** Stripping twice strips no more than stripping once. */
  lemma StripIdempotent(s: string)
    ensures Strip(Strip(s)) == Strip(s)
  {
    var r := Strip(s);
    assert StripStart(r) == r;
    assert StripEnd(r) == r;
  }

  /** What running the script produced: it could not be started (an
      OSError such as FileNotFoundError or PermissionError), the timeout
      expired, or it finished with an exit status and its captured standard
      output and error. */
  datatype ProcResult =
    | LaunchFails(e: OsError)
    | TimedOut
    | Finished(exitCode: int, stdout: string, stderr: string)

  datatype Failure =
    | ScriptTimedOut(seconds: Duration)
    | NonZeroExit(code: int, stderr: string)
    | NoMatch(pattern: string)

  /** The end of one `run`: it returned after logging the stripped standard
      output, raised MonitorFailed, or let an OSError from starting the
      script escape (only `TimeoutExpired` and `CalledProcessError` are
      caught). */
  datatype RunResult = Passed(output: string) | MonitorFailed(failure: Failure) | Escaped(e: OsError)

  /** `ExternalScript.run(dst_ip)`.  `exec` is the operating system: the
      result of running a command line under the monitor's timeout.  The
      command line is the script, with the destination as its only
      argument. */
  function Run(m: Monitor, dstIp: string, exec: seq<string> -> ProcResult): (r: RunResult)
    ensures exec([m.scriptPath, dstIp]).LaunchFails? ==> r == Escaped(exec([m.scriptPath, dstIp]).e)
    ensures exec([m.scriptPath, dstIp]).TimedOut? ==> r == MonitorFailed(ScriptTimedOut(m.base.timeout))
    ensures exec([m.scriptPath, dstIp]).Finished? ==>
      var p := exec([m.scriptPath, dstIp]);
      && (p.exitCode != 0 ==> r == MonitorFailed(NonZeroExit(p.exitCode, Strip(p.stderr))))
      && (p.exitCode == 0 && m.pattern.None? ==> r == Passed(Strip(p.stdout)))
      && (p.exitCode == 0 && m.pattern.Some? ==>
            (r.Passed? <==> m.pattern.value.search(Strip(p.stdout))) &&
            (r.Passed? ==> r.output == Strip(p.stdout)) &&
            (!r.Passed? ==> r == MonitorFailed(NoMatch(m.pattern.value.source))))
  {
    match exec([m.scriptPath, dstIp])
    case LaunchFails(e) => Escaped(e)
    case TimedOut => MonitorFailed(ScriptTimedOut(m.base.timeout))
    case Finished(exitCode, out, err) =>
      var stdout := Strip(out);
      var stderr := Strip(err);
      if exitCode != 0 then MonitorFailed(NonZeroExit(exitCode, stderr))
      else if m.pattern.Some? && !m.pattern.value.search(stdout) then MonitorFailed(NoMatch(m.pattern.value.source))
      else Passed(stdout)
  }

  /** A non-zero exit status decides the run whatever the script printed on
      its standard output and whatever the pattern is. */
  lemma ExitStatusFirst(m: Monitor, m': Monitor, dstIp: string, exec: seq<string> -> ProcResult, exec': seq<string> -> ProcResult)
    requires m.scriptPath == m'.scriptPath
    requires exec([m.scriptPath, dstIp]).Finished? && exec'([m.scriptPath, dstIp]).Finished?
    requires exec([m.scriptPath, dstIp]).exitCode != 0
    requires exec([m.scriptPath, dstIp]).exitCode == exec'([m.scriptPath, dstIp]).exitCode
    requires exec([m.scriptPath, dstIp]).stderr == exec'([m.scriptPath, dstIp]).stderr
    ensures Run(m, dstIp, exec) == Run(m', dstIp, exec')
  {
  }

  /** The run depends on the operating system only through the result of
      the one command `[script_path, dst_ip]`. */
  lemma OnlyThatCommand(m: Monitor, dstIp: string, exec: seq<string> -> ProcResult, exec': seq<string> -> ProcResult)
    requires exec([m.scriptPath, dstIp]) == exec'([m.scriptPath, dstIp])
    ensures Run(m, dstIp, exec) == Run(m, dstIp, exec')
  {
  }

  /** The text of MonitorFailed for each failure; `show` is Python's
      rendering of the timeout value. */
  function Message(f: Failure, show: Duration -> string): (r: string)
    ensures IsPrefix("external script timed out", r) <==> f.ScriptTimedOut?
    ensures IsPrefix("external script failed", r) <==> f.NonZeroExit?
    ensures IsPrefix("failed to match regexp", r) <==> f.NoMatch?
  {
    match f
    case ScriptTimedOut(seconds) =>
      var r := "external script timed out" + " after " + show(seconds) + " seconds";
      assert r[0] == 'e' && r[16] == 't';
      r
    case NonZeroExit(code, stderr) =>
      var r := "external script failed" + " with exit code " + IntToString(code) + ": stderr=" + stderr;
      assert r[0] == 'e' && r[16] == 'f';
      r
    case NoMatch(pattern) =>
      var r := "failed to match regexp" + " \"" + pattern + "\" in script output";
      assert r[0] == 'f';
      r
  }

  /** A non-zero exit message carries the stripped standard error at its
      end; a timeout message says the script timed out. */
  lemma MessageShape(f: Failure, show: Duration -> string)
    ensures f.NonZeroExit? ==> IsSuffix(f.stderr, Message(f, show))
    ensures f.ScriptTimedOut? ==> IsPrefix("external script timed out", Message(f, show))
  {
    match f
    case NonZeroExit(code, stderr) =>
      var head := "external script failed" + " with exit code " + IntToString(code) + ": stderr=";
      assert Message(f, show) == head + stderr;
      assert (head + stderr)[|head + stderr| - |stderr|..] == stderr;
    case ScriptTimedOut(_) =>
    case NoMatch(_) =>
  }
}

=== FILE: health_state.dfy ===
/** The health state table (`State`): the pools and global names read from
    the load-balancer configuration, every member's retry counter, dense
    ids for pools and members with their lookup tables, the probe
    scheduling queue, and the convergence test over members whose status is
    still unknown.

    A member is identified by its place in the table, a `MemberRef` (pool
    index, member index), where the source shares one member object between
    the pool, the lookup table and the undetermined list. */
module HealthState {
  import opened Common

  /** Seconds over which the first probes are spread. */
  const DISPERSION_WINDOW: real := 2.0

  /** A pool member: its address, its health status (None while unknown),
      its remaining retries and its dense id, the last two set by `State`. */
  datatype Member = Member(ip: string, status: Option<bool>, retriesLeft: Option<int>, id: Option<nat>)

  /** A pool: its name, its members, its monitor's retry count and its id. */
  datatype Pool = Pool(name: string, members: seq<Member>, retries: int, id: Option<nat>)

  datatype GlobalName = GlobalName(name: string, pool: string)

  /** A pool as `Pool.from_config_dict` builds it (that function is not part
      of this model): its members and its monitor's retry count. */
  datatype PoolSpec = PoolSpec(members: seq<Member>, retries: int)

  /** A global name's configuration: the value of its 'pool' key, None
      when the key is missing. */
  datatype GlobalNameSpec = GlobalNameSpec(pool: Option<ConfigValue>)

  predicate DistinctKeys<V>(d: seq<(string, V)>)
  {
    forall i, j :: 0 <= i < j < |d| ==> d[i].0 != d[j].0
  }

  /** A Python dict: entries in insertion order, keys distinct. */
  type Dict<V> = d: seq<(string, V)> | DistinctKeys(d) witness []

  /** The configuration: the 'pools' and 'globalnames' entries, None when
      the key is missing or holds None. */
  datatype LbConfig = LbConfig(pools: Option<Dict<PoolSpec>>, globalnames: Option<Dict<GlobalNameSpec>>)

  datatype ConfigError =
    | NoPools
    | NoGlobalNames
    | PoolMissing(globalname: string)
    | UnknownPool(globalname: string, pool: ConfigValue)

  /** The tables `_from_config_dict` builds. */
  datatype Tables = Tables(pools: seq<Pool>, globalnames: seq<GlobalName>)

  /** The keys of a dict. */
  function Keys<V>(d: seq<(string, V)>): (k: set<string>)
    ensures forall i :: 0 <= i < |d| ==> d[i].0 in k
    ensures forall n :: n in k ==> exists i :: 0 <= i < |d| && d[i].0 == n
  {
    set i | 0 <= i < |d| :: d[i].0
  }

  /** A global name's entry is acceptable: it has a 'pool' naming a pool. */
  predicate Resolves(gn: GlobalNameSpec, names: set<string>)
  {
    gn.pool.Some? && gn.pool.value.VStr? && gn.pool.value.s in names
  }

  function GlobalNameError(name: string, gn: GlobalNameSpec): ConfigError
  {
    if gn.pool.None? then PoolMissing(name) else UnknownPool(name, gn.pool.value)
  }

  /** Entry `i` is the first global name that does not resolve. */
  predicate FirstUnresolved(gns: seq<(string, GlobalNameSpec)>, names: set<string>, i: nat)
  {
    && i < |gns| && !Resolves(gns[i].1, names)
    && forall k :: 0 <= k < i ==> Resolves(gns[k].1, names)
  }

  /** The global names checked in order; the first bad entry is reported. */
  function BuildGlobalNames(gns: seq<(string, GlobalNameSpec)>, names: set<string>): (r: Result<seq<GlobalName>, ConfigError>)
    ensures r.Ok? <==> forall i :: 0 <= i < |gns| ==> Resolves(gns[i].1, names)
    ensures r.Ok? ==> |r.value| == |gns|
    ensures r.Ok? ==> forall i :: 0 <= i < |gns| ==> r.value[i] == GlobalName(gns[i].0, gns[i].1.pool.value.s)
    ensures r.Err? ==> exists i: nat :: FirstUnresolved(gns, names, i) && r.error == GlobalNameError(gns[i].0, gns[i].1)
  {
    if gns == [] then Ok([])
    else
      var (name, gn) := gns[0];
      if !Resolves(gn, names) then Err(GlobalNameError(name, gn))
      else match BuildGlobalNames(gns[1..], names)
        case Err(e) => Err(e)
        case Ok(rest) => Ok([GlobalName(name, gn.pool.value.s)] + rest)
  }

  /** `State._from_config_dict`: pools must be present and non-empty, then
      global names must be present and non-empty, and each must name a pool. */
  function FromConfigDict(obj: LbConfig): (r: Result<Tables, ConfigError>)
    ensures obj.pools.None? || obj.pools.value == [] ==> r == Err(NoPools)
    ensures obj.pools.Some? && obj.pools.value != [] && (obj.globalnames.None? || obj.globalnames.value == []) ==>
      r == Err(NoGlobalNames)
    ensures r.Ok? <==>
      && obj.pools.Some? && obj.pools.value != []
      && obj.globalnames.Some? && obj.globalnames.value != []
      && forall i :: 0 <= i < |obj.globalnames.value| ==> Resolves(obj.globalnames.value[i].1, Keys(obj.pools.value))
    ensures r.Err? && obj.pools.Some? && obj.pools.value != [] && obj.globalnames.Some? && obj.globalnames.value != [] ==>
      r.error == BuildGlobalNames(obj.globalnames.value, Keys(obj.pools.value)).error
    ensures r.Ok? ==>
      && |r.value.pools| == |obj.pools.value|
      && (forall p :: 0 <= p < |obj.pools.value| ==>
           r.value.pools[p] == Pool(obj.pools.value[p].0, obj.pools.value[p].1.members, obj.pools.value[p].1.retries, None))
      && |r.value.globalnames| == |obj.globalnames.value|
      && (forall i :: 0 <= i < |obj.globalnames.value| ==>
           r.value.globalnames[i] == GlobalName(obj.globalnames.value[i].0, obj.globalnames.value[i].1.pool.value.s))
  {
    if obj.pools.None? || obj.pools.value == [] then Err(NoPools)
    else
      var specs := obj.pools.value;
      var pools := seq(|specs|, p requires 0 <= p < |specs| => Pool(specs[p].0, specs[p].1.members, specs[p].1.retries, None));
      if obj.globalnames.None? || obj.globalnames.value == [] then Err(NoGlobalNames)
      else
        match BuildGlobalNames(obj.globalnames.value, Keys(specs))
        case Err(e) => Err(e)
        case Ok(gns) => Ok(Tables(pools, gns))
  }

  /** A configuration that is accepted has every global name referring to
      one of its pools. */
  lemma AcceptedNamesResolve(obj: LbConfig, i: nat)
    requires FromConfigDict(obj).Ok? && i < |FromConfigDict(obj).value.globalnames|
    ensures var t := FromConfigDict(obj).value;
      exists p :: 0 <= p < |t.pools| && t.pools[p].name == t.globalnames[i].pool
  {
    var t := FromConfigDict(obj).value;
    var specs := obj.pools.value;
    assert t.globalnames[i].pool in Keys(specs);
    var p :| 0 <= p < |specs| && specs[p].0 == t.globalnames[i].pool;
    assert t.pools[p].name == specs[p].0;
  }

  /** Where a member sits: its pool's index and its index in that pool. */
  datatype MemberRef = MemberRef(pool: nat, member: nat)

  /** `PQItem`: what the scheduling queue holds besides the probe time. */
  datatype PQItem = PQItem(poolId: nat, memberId: nat)

  /** `PQItem.__lt__`: items are ordered by member id alone. */
  predicate ItemLess(a: PQItem, b: PQItem)
    ensures ItemLess(a, b) ==> a.memberId != b.memberId
  {
    a.memberId < b.memberId
  }

  /** One `(next_probe_monotime, PQItem)` tuple of the queue. */
  datatype QueueEntry = QueueEntry(nextProbe: real, item: PQItem)

  /** Python's `<` on two different queue tuples: by probe time, and on a
      tie by the items' `__lt__`. */
  predicate EntryLess(x: QueueEntry, y: QueueEntry)
    ensures x.nextProbe < y.nextProbe ==> EntryLess(x, y)
    ensures EntryLess(x, y) ==> x.nextProbe <= y.nextProbe
  {
    x.nextProbe < y.nextProbe || (x.nextProbe == y.nextProbe && ItemLess(x.item, y.item))
  }

  /** Entries with different member ids are always ordered one way or the
      other, never both, and the order is transitive: the heap never meets
      two entries it cannot order. */
  lemma EntryOrderIsStrictTotal(x: QueueEntry, y: QueueEntry, z: QueueEntry)
    requires x.item.memberId != y.item.memberId
    ensures EntryLess(x, y) != EntryLess(y, x)
    ensures !EntryLess(x, x)
    ensures EntryLess(x, y) && EntryLess(y, z) ==> EntryLess(x, z)
  {
  }

  /** The number of members of each pool. */
  function Shape(pools: seq<Pool>): (sh: seq<nat>)
    ensures |sh| == |pools| && forall p :: 0 <= p < |pools| ==> sh[p] == |pools[p].members|
  {
    seq(|pools|, p requires 0 <= p < |pools| => |pools[p].members|)
  }

  /** The number of members over all pools. */
  function Count(sh: seq<nat>): nat
  {
    if sh == [] then 0 else Count(sh[..|sh| - 1]) + sh[|sh| - 1]
  }

  /** The first `n` members of pool `p`. */
  function PoolRefs(p: nat, n: nat): (r: seq<MemberRef>)
    ensures |r| == n
  {
    seq(n, j requires 0 <= j < n => MemberRef(p, j))
  }

  lemma PoolRefsStep(p: nat, n: nat)
    ensures PoolRefs(p, n + 1) == PoolRefs(p, n) + [MemberRef(p, n)]
  {
  }

  /** Every member in the order the source walks them: pool by pool, and
      within a pool in member order. */
  function Refs(sh: seq<nat>): (r: seq<MemberRef>)
    ensures |r| == Count(sh)
  {
    if sh == [] then []
    else Refs(sh[..|sh| - 1]) + PoolRefs(|sh| - 1, sh[|sh| - 1])
  }

  lemma CountStep(sh: seq<nat>, p: nat)
    requires p < |sh|
    ensures Count(sh[..p + 1]) == Count(sh[..p]) + sh[p]
  {
    assert sh[..p + 1][..p] == sh[..p];
  }

  lemma RefsStep(sh: seq<nat>, p: nat)
    requires p < |sh|
    ensures Refs(sh[..p + 1]) == Refs(sh[..p]) + PoolRefs(p, sh[p])
  {
    assert sh[..p + 1][..p] == sh[..p];
  }

  lemma {:induction false} CountPrefix(sh: seq<nat>, p: nat)
    requires p <= |sh|
    ensures Count(sh[..p]) <= Count(sh)
    decreases |sh|
  {
    if p < |sh| {
      assert sh[..|sh| - 1][..p] == sh[..p];
      CountPrefix(sh[..|sh| - 1], p);
    } else {
      assert sh[..p] == sh;
    }
  }

  /** The member `j` of pool `p` is found in the walk at position
      `Count(sh[..p]) + j`, its id. */
  lemma {:induction false} RefsAt(sh: seq<nat>, p: nat, j: nat)
    requires p < |sh| && j < sh[p]
    ensures Count(sh[..p]) + j < Count(sh)
    ensures Refs(sh)[Count(sh[..p]) + j] == MemberRef(p, j)
    decreases |sh|
  {
    var n := |sh| - 1;
    var init := sh[..n];
    if p == n {
      assert init == sh[..p];
    } else {
      assert init[..p] == sh[..p];
      RefsAt(init, p, j);
    }
  }

  /** Conversely, the walk holds only real members, and the one at position
      `k` has id `k`. */
  lemma {:induction false} RefsValid(sh: seq<nat>, k: nat)
    requires k < Count(sh)
    ensures var r := Refs(sh)[k]; r.pool < |sh| && r.member < sh[r.pool] && Count(sh[..r.pool]) + r.member == k
    decreases |sh|
  {
    var n := |sh| - 1;
    var init := sh[..n];
    if k < Count(init) {
      RefsValid(init, k);
      var r := Refs(init)[k];
      assert init[..r.pool] == sh[..r.pool];
    } else {
      assert init == sh[..n];
    }
  }

  /** A pool after the retries walk: every member's `retries_left` is the
      pool's retry count. */
  function Retried(pool: Pool): (r: Pool)
    ensures r.name == pool.name && r.retries == pool.retries && r.id == pool.id
    ensures |r.members| == |pool.members|
  {
    pool.(members := seq(|pool.members|, j requires 0 <= j < |pool.members| =>
      pool.members[j].(retriesLeft := Some(pool.retries))))
  }

  /** A pool after the numbering walk: it has id `p` and its member `j` has
      id `offset + j`. */
  function Numbered(pool: Pool, p: nat, offset: nat): (r: Pool)
    ensures r.name == pool.name && r.retries == pool.retries
    ensures |r.members| == |pool.members|
  {
    pool.(id := Some(p), members := NumberedMembers(pool.members, offset))
  }

  /** `members` with ids from `offset` on, in order. */
  function NumberedMembers(members: seq<Member>, offset: nat): (r: seq<Member>)
    ensures |r| == |members|
  {
    seq(|members|, j requires 0 <= j < |members| => members[j].(id := Some(offset + j)))
  }

  /** The retries walk over all pools. */
  function RetriedAll(pools: seq<Pool>): (r: seq<Pool>)
    ensures |r| == |pools|
  {
    seq(|pools|, q requires 0 <= q < |pools| => Retried(pools[q]))
  }

  /** The numbering walk over all pools: ids count pools, and members pool
      by pool. */
  function NumberedAll(pools: seq<Pool>): (r: seq<Pool>)
    ensures |r| == |pools|
  {
    seq(|pools|, q requires 0 <= q < |pools| => Numbered(pools[q], q, Count(Shape(pools)[..q])))
  }

  /** The pools after `State.__init__`: the retries walk, then the
      numbering walk. */
  function Initialized(pools: seq<Pool>): (r: seq<Pool>)
    ensures |r| == |pools|
  {
    NumberedAll(RetriedAll(pools))
  }

  lemma RetriedAllShape(pools: seq<Pool>)
    ensures Shape(RetriedAll(pools)) == Shape(pools)
  {
  }

  /** Pool `p` after `State.__init__`, in one expression. */
  lemma InitializedAt(P: seq<Pool>, p: nat)
    requires p < |P|
    ensures Initialized(P)[p] == Numbered(Retried(P[p]), p, Count(Shape(P)[..p]))
  {
    RetriedAllShape(P);
  }

  /** Every member starts with its own pool's retry count, keeps its address
      and status, and every pool keeps its name. */
  lemma InitializedKeepsConfig(pools: seq<Pool>, p: nat, j: nat)
    requires p < |pools| && j < |pools[p].members|
    ensures Initialized(pools)[p].name == pools[p].name
    ensures Initialized(pools)[p].id == Some(p)
    ensures var m := Initialized(pools)[p].members[j];
      m.retriesLeft == Some(pools[p].retries) && m.ip == pools[p].members[j].ip && m.status == pools[p].members[j].status
  {
    InitializedAt(pools, p);
  }

  /** `_member_by_id[m._id] is m`: looking a member up by its id finds it. */
  lemma MemberIdRoundTrip(pools: seq<Pool>, p: nat, j: nat)
    requires p < |pools| && j < |pools[p].members|
    ensures var m := Initialized(pools)[p].members[j];
      m.id.Some? && m.id.value < Count(Shape(pools)) && Refs(Shape(pools))[m.id.value] == MemberRef(p, j)
  {
    RefsAt(Shape(pools), p, j);
    InitializedAt(pools, p);
  }

  /** The lookup table holds every member once: the member it names at
      position `k` has id `k`. */
  lemma MemberByIdIsDense(pools: seq<Pool>, k: nat)
    requires k < Count(Shape(pools))
    ensures var r := Refs(Shape(pools))[k];
      r.pool < |pools| && r.member < |pools[r.pool].members| &&
      Initialized(pools)[r.pool].members[r.member].id == Some(k)
  {
    RefsValid(Shape(pools), k);
    var r := Refs(Shape(pools))[k];
    InitializedAt(pools, r.pool);
  }

  /** A draw of `random.uniform(0, DISPERSION_WINDOW)`. */
  type Spread = r: real | 0.0 <= r <= DISPERSION_WINDOW

  /** The sources of the probe times: `clock(k)` is the `time.monotonic()`
      reading and `draw(k)` the random spread taken for the `k`-th push. */
  datatype Timing = Timing(clock: nat -> real, draw: nat -> Spread)

  /** The probe time of the `k`-th push: the clock reading plus the spread,
      so within the dispersion window after the reading. */
  function ProbeTime(timing: Timing, k: nat): (t: real)
    ensures timing.clock(k) <= t <= timing.clock(k) + DISPERSION_WINDOW
  {
    timing.clock(k) + timing.draw(k)
  }

  /** The queue as first built: for the `k`-th member walked, probe time
      `ProbeTime(timing, k)`, the member's pool id and member id `k`. */
  function InitialQueue(refs: seq<MemberRef>, timing: Timing): (q: seq<QueueEntry>)
    ensures |q| == |refs|
  {
    QueuePrefix(refs, timing, |refs|)
  }

  /** The first `n` entries of the initial queue. */
  function QueuePrefix(refs: seq<MemberRef>, timing: Timing, n: nat): (q: seq<QueueEntry>)
    requires n <= |refs|
    ensures |q| == n
  {
    seq(n, k requires 0 <= k < n => QueueEntry(ProbeTime(timing, k), PQItem(refs[k].pool, k)))
  }

  lemma QueuePrefixStep(refs: seq<MemberRef>, timing: Timing, n: nat)
    requires n < |refs|
    ensures QueuePrefix(refs, timing, n + 1) ==
      QueuePrefix(refs, timing, n) + [QueueEntry(ProbeTime(timing, n), PQItem(refs[n].pool, n))]
  {
  }

  lemma InitialQueueEntry(pools: seq<Pool>, timing: Timing, k: nat)
    requires k < Count(Shape(pools))
    ensures var q := InitialQueue(Refs(Shape(pools)), timing);
      var r := Refs(Shape(pools))[k];
      && r.pool < |pools| && r.member < |pools[r.pool].members|
      && Initialized(pools)[r.pool].id == Some(q[k].item.poolId)
      && Initialized(pools)[r.pool].members[r.member].id == Some(q[k].item.memberId)
      && timing.clock(k) <= q[k].nextProbe <= timing.clock(k) + DISPERSION_WINDOW
      && forall i :: 0 <= i < |q| && i != k ==> EntryLess(q[i], q[k]) != EntryLess(q[k], q[i])
  {
    MemberByIdIsDense(pools, k);
    InitializedAt(pools, Refs(Shape(pools))[k].pool);
  }

  class State {
    var pools: seq<Pool>
    var globalnames: seq<GlobalName>
    /** Members whose status may still be unknown, in walk order. */
    var statusUndetermined: seq<MemberRef>
    /** `_pool_by_id`: the pool with id `i`. */
    var poolById: seq<nat>
    /** `_member_by_id`: the member with id `k`. */
    var memberById: seq<MemberRef>
    /** `_pq`, in push order (the heap's layout is not modelled). */
    var pq: seq<QueueEntry>

    predicate ValidRef(r: MemberRef)
      reads this`pools
    {
      r.pool < |pools| && r.member < |pools[r.pool].members|
    }

    ghost predicate Valid()
      reads this`pools, this`statusUndetermined
    {
      forall r :: r in statusUndetermined ==> ValidRef(r)
    }

    function StatusOf(r: MemberRef): Option<bool>
      reads this`pools
      requires ValidRef(r)
    {
      pools[r.pool].members[r.member].status
    }

    /** `State.__init__` after `_from_config_dict`: retries, the undetermined
        list, the id tables and the queue, each built by its own walk over
        the pools.  `timing` gives the clock reading and the random spread
        of each push. */
    constructor (tables: Tables, timing: Timing)
      ensures Valid()
      ensures pools == Initialized(tables.pools) && globalnames == tables.globalnames
      ensures statusUndetermined == Refs(Shape(tables.pools))
      ensures |poolById| == |tables.pools| && forall i :: 0 <= i < |poolById| ==> poolById[i] == i
      ensures memberById == Refs(Shape(tables.pools))
      ensures pq == InitialQueue(memberById, timing)
    {
      pools := tables.pools;
      globalnames := tables.globalnames;
      statusUndetermined := [];
      poolById := [];
      memberById := [];
      pq := [];
      new;
      BuildTables();
      FillQueue(timing);
    }

    /** The first three walks of `State.__init__`: retries, the undetermined
        list, and the ids with their lookup tables. */
    method BuildTables()
      requires statusUndetermined == [] && poolById == [] && memberById == []
      modifies this`pools, this`statusUndetermined, this`poolById, this`memberById
      ensures Valid()
      ensures pools == Initialized(old(pools))
      ensures statusUndetermined == Refs(Shape(old(pools)))
      ensures |poolById| == |pools| && forall i :: 0 <= i < |poolById| ==> poolById[i] == i
      ensures memberById == Refs(Shape(old(pools)))
      ensures Numbering(pools, memberById)
    {
      ghost var P := pools;
      SetRetries();
      ListMembers();
      NumberPoolsAndMembers();
      assert Shape(pools) == Shape(P);
      assert Valid() by {
        RefsAreMembers(Shape(P));
      }
    }

    /** Every member's `retries_left` becomes its pool's monitor retries. */
    method SetRetries()
      modifies this`pools
      ensures pools == RetriedAll(old(pools)) && Shape(pools) == Shape(old(pools))
    {
      ghost var P := pools;
      var p := 0;
      while p < |pools|
        invariant 0 <= p <= |pools| == |P|
        invariant forall q :: 0 <= q < |P| ==> pools[q] == if q < p then Retried(P[q]) else P[q]
      {
        var pool := pools[p];
        var members := pool.members;
        var j := 0;
        while j < |members|
          invariant 0 <= j <= |members| == |pool.members|
          invariant forall i :: 0 <= i < |members| ==>
            members[i] == if i < j then pool.members[i].(retriesLeft := Some(pool.retries)) else pool.members[i]
        {
          members := members[j := members[j].(retriesLeft := Some(pool.retries))];
          j := j + 1;
        }
        assert pool.(members := members) == Retried(P[p]);
        pools := pools[p := pool.(members := members)];
        p := p + 1;
      }
      assert pools == RetriedAll(P);
      RetriedAllShape(P);
    }

    /** `_status_undetermined` lists every member, pool by pool. */
    method ListMembers()
      requires statusUndetermined == []
      modifies this`statusUndetermined
      ensures statusUndetermined == Refs(Shape(pools))
    {
      var sh := Shape(pools);
      var p := 0;
      while p < |pools|
        invariant 0 <= p <= |pools|
        invariant statusUndetermined == Refs(sh[..p])
      {
        var j := 0;
        while j < |pools[p].members|
          invariant 0 <= j <= |pools[p].members|
          invariant statusUndetermined == Refs(sh[..p]) + PoolRefs(p, j)
        {
          statusUndetermined := statusUndetermined + [MemberRef(p, j)];
          PoolRefsStep(p, j);
          j := j + 1;
        }
        RefsStep(sh, p);
        p := p + 1;
      }
      assert sh[..p] == sh;
    }

    /** Pool `p` gets id `p`, and each member the number of members walked
        before it; the lookup tables grow in the same walk. */
    method NumberPoolsAndMembers()
      requires poolById == [] && memberById == []
      modifies this`pools, this`poolById, this`memberById
      ensures pools == NumberedAll(old(pools)) && Shape(pools) == Shape(old(pools))
      ensures |poolById| == |pools| && forall i :: 0 <= i < |pools| ==> poolById[i] == i
      ensures memberById == Refs(Shape(old(pools)))
      ensures Numbering(pools, memberById)
    {
      ghost var R := pools;
      var sh := Shape(pools);
      var p := 0;
      while p < |pools|
        invariant 0 <= p <= |pools| == |R|
        invariant forall q :: 0 <= q < |R| ==> pools[q] == if q < p then Numbered(R[q], q, Count(sh[..q])) else R[q]
        invariant |poolById| == p && forall i :: 0 <= i < p ==> poolById[i] == i
        invariant memberById == Refs(sh[..p])
      {
        var pool := pools[p].(id := Some(|poolById|));
        poolById := poolById + [p];
        var members := NumberMembers(p, pool.members);
        RefsStep(sh, p);
        pools := pools[p := pool.(members := members)];
        p := p + 1;
      }
      assert sh[..p] == sh;
      assert pools == NumberedAll(R);
      NumberedAllShape(R);
      NumberedAllNumbering(R);
    }

    /** The members of pool `p` get the next free ids, in order, and are
        appended to the lookup table. */
    method NumberMembers(p: nat, members: seq<Member>) returns (numbered: seq<Member>)
      modifies this`memberById
      ensures numbered == NumberedMembers(members, |old(memberById)|)
      ensures memberById == old(memberById) + PoolRefs(p, |members|)
    {
      numbered := members;
      var j := 0;
      var offset := |memberById|;
      while j < |numbered|
        invariant 0 <= j <= |numbered| == |members|
        invariant memberById == old(memberById) + PoolRefs(p, j)
        invariant forall i :: 0 <= i < |members| ==>
          numbered[i] == if i < j then members[i].(id := Some(offset + i)) else members[i]
      {
        numbered := numbered[j := numbered[j].(id := Some(|memberById|))];
        memberById := memberById + [MemberRef(p, j)];
        PoolRefsStep(p, j);
        j := j + 1;
      }
    }

    /** One queue entry per member, pushed in walk order. */
    method FillQueue(timing: Timing)
      requires pq == [] && Numbering(pools, memberById)
      modifies this`pq
      ensures pq == InitialQueue(memberById, timing)
    {
      var sh := Shape(pools);
      var p := 0;
      while p < |pools|
        invariant 0 <= p <= |pools|
        invariant Count(sh[..p]) <= Count(sh) == |memberById|
        invariant pq == QueuePrefix(memberById, timing, Count(sh[..p]))
      {
        CountStep(sh, p);
        CountPrefix(sh, p + 1);
        PushMembers(pools[p], p, Count(sh[..p]), timing);
        p := p + 1;
      }
      assert sh[..p] == sh;
    }

    /** The entries of the members of `pool`, the pool with id `p` whose
        members have ids from `offset` on, pushed in member order. */
    method PushMembers(pool: Pool, p: nat, ghost offset: nat, timing: Timing)
      requires NumberedFrom(pool, p, offset, memberById)
      requires pq == QueuePrefix(memberById, timing, offset)
      modifies this`pq
      ensures pq == QueuePrefix(memberById, timing, offset + |pool.members|)
    {
      var j := 0;
      while j < |pool.members|
        invariant 0 <= j <= |pool.members|
        invariant pq == QueuePrefix(memberById, timing, offset + j)
      {
        var member := pool.members[j];
        QueuePrefixStep(memberById, timing, offset + j);
        pq := pq + [QueueEntry(timing.clock(|pq|) + timing.draw(|pq|), PQItem(pool.id.value, member.id.value))];
        j := j + 1;
      }
    }

    /** `health_converged`: drops members with a known status from the front
        of the undetermined list and stops at the first unknown one. */
    method HealthConverged() returns (r: bool)
      requires Valid()
      modifies this`statusUndetermined
      ensures Valid()
      ensures |statusUndetermined| <= |old(statusUndetermined)|
      ensures statusUndetermined == old(statusUndetermined)[|old(statusUndetermined)| - |statusUndetermined|..]
      ensures forall i :: 0 <= i < |old(statusUndetermined)| - |statusUndetermined| ==>
        StatusOf(old(statusUndetermined)[i]).Some?
      ensures statusUndetermined == [] || StatusOf(statusUndetermined[0]).None?
      ensures r <==> statusUndetermined == []
      ensures r <==> forall x :: x in old(statusUndetermined) ==> StatusOf(x).Some?
      ensures old(statusUndetermined) == [] ==> r
    {
      if |statusUndetermined| == 0 {
        return true;
      }
      ghost var S := statusUndetermined;
      while |statusUndetermined| > 0
        invariant forall i :: 0 <= i < |S| ==> ValidRef(S[i])
        invariant |statusUndetermined| <= |S| && statusUndetermined == S[|S| - |statusUndetermined|..]
        invariant forall i :: 0 <= i < |S| - |statusUndetermined| ==> StatusOf(S[i]).Some?
      {
        if StatusOf(statusUndetermined[0]).None? {
          return false;
        }
        statusUndetermined := statusUndetermined[1..];
      }
      return true;
    }
  }

  /** `pool` has id `p`, its members have the ids from `offset` on, and the
      lookup table `refs` names each of them at its id. */
  predicate NumberedFrom(pool: Pool, p: nat, offset: nat, refs: seq<MemberRef>)
  {
    && pool.id == Some(p) && offset + |pool.members| <= |refs|
    && forall j :: 0 <= j < |pool.members| ==>
         pool.members[j].id == Some(offset + j) && refs[offset + j] == MemberRef(p, j)
  }

  /** The ids of all pools and members follow the walk, and `refs` names
      every member at its id. */
  predicate Numbering(pools: seq<Pool>, refs: seq<MemberRef>)
  {
    && |refs| == Count(Shape(pools))
    && forall p :: 0 <= p < |pools| ==> NumberedFrom(pools[p], p, Count(Shape(pools)[..p]), refs)
  }

  lemma NumberedAllShape(pools: seq<Pool>)
    ensures Shape(NumberedAll(pools)) == Shape(pools)
  {
  }

  /** Pool `p` after the numbering walk has id `p`, and its members have the
      ids the walk gives them. */
  lemma NumberedPool(pools: seq<Pool>, p: nat)
    requires p < |pools|
    ensures NumberedFrom(NumberedAll(pools)[p], p, Count(Shape(pools)[..p]), Refs(Shape(pools)))
  {
    var sh := Shape(pools);
    CountStep(sh, p);
    CountPrefix(sh, p + 1);
    forall j | 0 <= j < |pools[p].members|
      ensures Count(sh[..p]) + j < Count(sh) && Refs(sh)[Count(sh[..p]) + j] == MemberRef(p, j)
    {
      RefsAt(sh, p, j);
    }
  }

  /** After the numbering walk every pool is numbered as the walk says. */
  lemma NumberedAllNumbering(pools: seq<Pool>)
    ensures Numbering(NumberedAll(pools), Refs(Shape(pools)))
  {
    NumberedAllShape(pools);
    forall p | 0 <= p < |pools|
      ensures NumberedFrom(NumberedAll(pools)[p], p, Count(Shape(pools)[..p]), Refs(Shape(pools)))
    {
      NumberedPool(pools, p);
    }
  }

  /** Every entry of the walk names a real member. */
  lemma RefsAreMembers(sh: seq<nat>)
    ensures forall r :: r in Refs(sh) ==> r.pool < |sh| && r.member < sh[r.pool]
  {
    forall r | r in Refs(sh)
      ensures r.pool < |sh| && r.member < sh[r.pool]
    {
      var k :| 0 <= k < |Refs(sh)| && Refs(sh)[k] == r;
      RefsValid(sh, k);
    }
  }

  /** `State(config)`: `_from_config_dict` first, raising on a bad
      configuration, then the tables of the constructor. */
  method Create(config: LbConfig, timing: Timing) returns (r: Result<State, ConfigError>)
    ensures FromConfigDict(config).Err? ==> r == Err(FromConfigDict(config).error)
    ensures FromConfigDict(config).Ok? ==> r.Ok? && fresh(r.value)
    ensures FromConfigDict(config).Ok? ==> r.value.pools == Initialized(FromConfigDict(config).value.pools)
  {
    match FromConfigDict(config)
    case Err(e) =>
      return Err(e);
    case Ok(tables) =>
      var s := new State(tables, timing);
      return Ok(s);
  }

  /** Convergence is stable: once `health_converged` has answered True, the
      next call answers True too. */
  method ConvergenceIsStable(s: State) returns (first: bool, second: bool)
    requires s.Valid()
    modifies s`statusUndetermined
    ensures first ==> second
  {
    first := s.HealthConverged();
    second := s.HealthConverged();
  }
}

=== FILE: instance_dict.dfy ===
/** `instance_to_dict`: the recursive conversion of a Python value into
    plain data (numbers, strings, dicts and lists) used to export the health
    state.  Python values are a datatype here; the conversion is a pure
    function over it. */
module InstanceDict {

  /** The Python values the conversion distinguishes.  `NoDict` is any
      other object without a `__dict__` (None, bytes, a set, ...), given by
      its `str()` text. */
  datatype Value =
    | Int(i: int)
    | Float(x: real)
    | Complex(re: real, im: real)
    | Bool(b: bool)
    | Str(s: string)
    | Dict(entries: seq<(Value, Value)>)
    | List(items: seq<Value>)
    | Tuple(items: seq<Value>)
    | Obj(attrs: seq<(string, Value)>)
    | NoDict(repr: string)

  /** The values returned unchanged: `int`, `float`, `complex`, `bool`, `str`. */
  predicate IsPrimitive(v: Value)
  {
    v.Int? || v.Float? || v.Complex? || v.Bool? || v.Str?
  }

  /** Plain data: primitives, dicts whose values are plain, and lists of
      plain values.  Dict keys are left as they are. */
  predicate Plain(v: Value)
  {
    match v
    case Dict(entries) => forall i :: 0 <= i < |entries| ==> Plain(entries[i].1)
    case List(items) => forall i :: 0 <= i < |items| ==> Plain(items[i])
    case Tuple(_) => false
    case Obj(_) => false
    case NoDict(_) => false
    case _ => true
  }

  /** An attribute name starting with an underscore. */
  predicate IsPrivate(name: string)
  {
    |name| > 0 && name[0] == '_'
  }

  /** An attribute is kept unless private ones are ignored and it is private. */
  predicate Kept(name: string, ignorePrivate: bool)
  {
    !(ignorePrivate && IsPrivate(name))
  }

  /** The keys of a dict's entries. */
  function Keys(entries: seq<(Value, Value)>): set<Value>
  {
    set i | 0 <= i < |entries| :: entries[i].0
  }

  /** The names of the attributes kept, as `str` keys. */
  function KeptNames<T>(attrs: seq<(string, T)>, ignorePrivate: bool): set<Value>
  {
    set i | 0 <= i < |attrs| && Kept(attrs[i].0, ignorePrivate) :: Str(attrs[i].0)
  }

  /** The attributes kept, in order, each keyed by its name as a `str`. */
  function Visible(attrs: seq<(string, Value)>, ignorePrivate: bool): (r: seq<(Value, Value)>)
    ensures |r| <= |attrs|
    ensures !ignorePrivate ==> |r| == |attrs|
    ensures Keys(r) == KeptNames(attrs, ignorePrivate)
    ensures (forall i :: 0 <= i < |attrs| ==> Plain(attrs[i].1)) ==> forall i :: 0 <= i < |r| ==> Plain(r[i].1)
  {
    if attrs == [] then []
    else
      var rest := Visible(attrs[1..], ignorePrivate);
      assert KeptNames(attrs, ignorePrivate) ==
        KeptNames(attrs[..1], ignorePrivate) + KeptNames(attrs[1..], ignorePrivate) by {
        assert forall i :: 1 <= i < |attrs| ==> attrs[i] == attrs[1..][i - 1];
      }
      if Kept(attrs[0].0, ignorePrivate) then
        var r := [(Str(attrs[0].0), attrs[0].1)] + rest;
        assert Keys(r) == {Str(attrs[0].0)} + Keys(rest) by {
          forall k | k in Keys(r) ensures k == Str(attrs[0].0) || k in Keys(rest) {
            var i :| 0 <= i < |r| && r[i].0 == k;
            if i > 0 {
              assert r[i] == rest[i - 1];
            }
          }
          assert r[0].0 in Keys(r);
          forall k | k in Keys(rest) ensures k in Keys(r) {
            var i :| 0 <= i < |rest| && rest[i].0 == k;
            assert r[i + 1] == rest[i];
          }
        }
        r
      else rest
  }

  /** `e` is a kept attribute of `attrs`, keyed by its name, with its value. */
  predicate FromKept(attrs: seq<(string, Value)>, ignorePrivate: bool, e: (Value, Value))
  {
    exists j :: 0 <= j < |attrs| && Kept(attrs[j].0, ignorePrivate) && e == (Str(attrs[j].0), attrs[j].1)
  }

  /** Every entry kept is a kept attribute, keyed by its name, with its own
      value. */
  lemma {:induction false} VisibleFrom(attrs: seq<(string, Value)>, ignorePrivate: bool)
    ensures forall i :: 0 <= i < |Visible(attrs, ignorePrivate)| ==> FromKept(attrs, ignorePrivate, Visible(attrs, ignorePrivate)[i])
  {
    if attrs != [] {
      VisibleFrom(attrs[1..], ignorePrivate);
      var rest := Visible(attrs[1..], ignorePrivate);
      var r := Visible(attrs, ignorePrivate);
      forall i | 0 <= i < |r|
        ensures FromKept(attrs, ignorePrivate, r[i])
      {
        if Kept(attrs[0].0, ignorePrivate) && i == 0 {
          assert r[0] == (Str(attrs[0].0), attrs[0].1);
        } else {
          var k := if Kept(attrs[0].0, ignorePrivate) then i - 1 else i;
          assert r[i] == rest[k];
          assert FromKept(attrs[1..], ignorePrivate, rest[k]);
          var j :| 0 <= j < |attrs[1..]| && Kept(attrs[1..][j].0, ignorePrivate) && rest[k] == (Str(attrs[1..][j].0), attrs[1..][j].1);
          assert attrs[1..][j] == attrs[j + 1];
        }
      }
    }
  }

  /** Without `ignore_private` every attribute is kept, in place. */
  lemma {:induction false} VisibleAll(attrs: seq<(string, Value)>)
    ensures forall i :: 0 <= i < |attrs| ==> Visible(attrs, false)[i] == (Str(attrs[i].0), attrs[i].1)
  {
    if attrs != [] {
      VisibleAll(attrs[1..]);
      var r := Visible(attrs, false);
      forall i | 1 <= i < |attrs|
        ensures r[i] == (Str(attrs[i].0), attrs[i].1)
      {
        assert r[i] == Visible(attrs[1..], false)[i - 1];
        assert attrs[1..][i - 1] == attrs[i];
      }
    }
  }

  /** Filtering keeps the order of the attributes: the attributes kept from
      `a + b` are those kept from `a` followed by those kept from `b`. */
  lemma {:induction false} VisibleConcat(a: seq<(string, Value)>, b: seq<(string, Value)>, ignorePrivate: bool)
    ensures Visible(a + b, ignorePrivate) == Visible(a, ignorePrivate) + Visible(b, ignorePrivate)
  {
    if a != [] {
      assert (a + b)[1..] == a[1..] + b;
      VisibleConcat(a[1..], b, ignorePrivate);
    } else {
      assert a + b == b;
    }
  }

  /** The attributes of an object, each value converted. */
  function Converted(v: Value, ignorePrivate: bool): (r: seq<(string, Value)>)
    requires v.Obj?
    ensures |r| == |v.attrs|
    ensures forall i :: 0 <= i < |r| ==> r[i] == (v.attrs[i].0, ToDict(v.attrs[i].1, ignorePrivate))
    decreases v, 0
  {
    seq(|v.attrs|, i requires 0 <= i < |v.attrs| => (v.attrs[i].0, ToDict(v.attrs[i].1, ignorePrivate)))
  }

  /** The entries of a dict, each value converted and each key kept. */
  function ConvertedEntries(v: Value, ignorePrivate: bool): (r: seq<(Value, Value)>)
    requires v.Dict?
    ensures |r| == |v.entries|
    ensures forall i :: 0 <= i < |r| ==> r[i] == (v.entries[i].0, ToDict(v.entries[i].1, ignorePrivate))
    decreases v, 0
  {
    seq(|v.entries|, i requires 0 <= i < |v.entries| => (v.entries[i].0, ToDict(v.entries[i].1, ignorePrivate)))
  }

  /** The elements of a list or tuple, each converted. */
  function ConvertedItems(v: Value, ignorePrivate: bool): (r: seq<Value>)
    requires v.List? || v.Tuple?
    ensures |r| == |v.items|
    ensures forall i :: 0 <= i < |r| ==> r[i] == ToDict(v.items[i], ignorePrivate)
    decreases v, 0
  {
    seq(|v.items|, i requires 0 <= i < |v.items| => ToDict(v.items[i], ignorePrivate))
  }

  /** `instance_to_dict` on an object with a `__dict__`: a dict of its
      attributes in order, each value converted, the private ones dropped
      when asked. */
  function ObjectToDict(v: Value, ignorePrivate: bool): (r: Value)
    requires v.Obj?
    ensures Plain(r)
    ensures r.Dict? && Keys(r.entries) == KeptNames(v.attrs, ignorePrivate)
    ensures forall i :: 0 <= i < |r.entries| ==>
      exists j :: 0 <= j < |v.attrs| && Kept(v.attrs[j].0, ignorePrivate) &&
        r.entries[i] == (Str(v.attrs[j].0), ToDict(v.attrs[j].1, ignorePrivate))
    ensures !ignorePrivate ==> |r.entries| == |v.attrs|
    ensures !ignorePrivate ==> forall i :: 0 <= i < |v.attrs| ==>
      r.entries[i] == (Str(v.attrs[i].0), ToDict(v.attrs[i].1, ignorePrivate))
    decreases v, 1
  {
    var converted := Converted(v, ignorePrivate);
    assert KeptNames(converted, ignorePrivate) == KeptNames(v.attrs, ignorePrivate) by {
      assert forall i :: 0 <= i < |v.attrs| ==> converted[i].0 == v.attrs[i].0;
    }
    VisibleFrom(converted, ignorePrivate);
    VisibleAll(converted);
    Dict(Visible(converted, ignorePrivate))
  }

  /** `instance_to_dict(obj, ignore_private)`.  A primitive is returned as it
      is; a dict keeps its keys, in order, and converts its values; a list or
      tuple becomes a list of the converted elements, in order; an object
      becomes a dict of its converted attributes (`ObjectToDict`); anything
      without a `__dict__` becomes its `str()` text.  The result is always
      plain data. */
  function ToDict(v: Value, ignorePrivate: bool): (r: Value)
    ensures Plain(r)
    ensures IsPrimitive(v) ==> r == v
    ensures v.NoDict? ==> r == Str(v.repr)
    ensures v.Dict? ==> r.Dict? && |r.entries| == |v.entries|
    ensures v.Dict? ==> forall i :: 0 <= i < |v.entries| ==>
      r.entries[i] == (v.entries[i].0, ToDict(v.entries[i].1, ignorePrivate))
    ensures v.List? || v.Tuple? ==> r.List? && |r.items| == |v.items|
    ensures v.List? || v.Tuple? ==> forall i :: 0 <= i < |v.items| ==> r.items[i] == ToDict(v.items[i], ignorePrivate)
    ensures v.Obj? ==> r == ObjectToDict(v, ignorePrivate)
    decreases v, 2
  {
    match v
    case Dict(_) => Dict(ConvertedEntries(v, ignorePrivate))
    case List(_) => List(ConvertedItems(v, ignorePrivate))
    case Tuple(_) => List(ConvertedItems(v, ignorePrivate))
    case Obj(_) => ObjectToDict(v, ignorePrivate)
    case NoDict(repr) => Str(repr)
    case _ => v
  }

  /** An object with one attribute becomes a dict with exactly that
      attribute, converted, or an empty dict when it is dropped.  With
      `ObjectKeepsOrder` this fixes the conversion of every object. */
  lemma ObjectSingle(x: (string, Value), ignorePrivate: bool)
    ensures ToDict(Obj([x]), ignorePrivate).entries ==
      if Kept(x.0, ignorePrivate) then [(Str(x.0), ToDict(x.1, ignorePrivate))] else []
  {
  }

  /** An object's dict lists its attributes in the order of its `__dict__`:
      converting the attributes `a + b` gives the entries of `a` followed by
      those of `b`. */
  lemma ObjectKeepsOrder(a: seq<(string, Value)>, b: seq<(string, Value)>, ignorePrivate: bool)
    ensures ToDict(Obj(a + b), ignorePrivate).entries ==
      ToDict(Obj(a), ignorePrivate).entries + ToDict(Obj(b), ignorePrivate).entries
  {
    var ca, cb := Converted(Obj(a), ignorePrivate), Converted(Obj(b), ignorePrivate);
    var cab := Converted(Obj(a + b), ignorePrivate);
    assert cab == ca + cb by {
      forall i | 0 <= i < |cab|
        ensures cab[i] == (ca + cb)[i]
      {
        if i < |a| {
          assert (a + b)[i] == a[i];
        } else {
          assert (a + b)[i] == b[i - |a|];
        }
      }
    }
    VisibleConcat(ca, cb, ignorePrivate);
    assert ToDict(Obj(a + b), ignorePrivate).entries == Visible(cab, ignorePrivate);
  }

  /** Plain data is left exactly as it is. */
  lemma {:induction false} PlainIsFixed(v: Value, ignorePrivate: bool)
    requires Plain(v)
    ensures ToDict(v, ignorePrivate) == v
  {
    match v
    case Dict(entries) =>
      forall i | 0 <= i < |entries|
        ensures ToDict(entries[i].1, ignorePrivate) == entries[i].1
      {
        PlainIsFixed(entries[i].1, ignorePrivate);
      }
      assert ToDict(v, ignorePrivate).entries == entries;
    case List(items) =>
      forall i | 0 <= i < |items|
        ensures ToDict(items[i], ignorePrivate) == items[i]
      {
        PlainIsFixed(items[i], ignorePrivate);
      }
      assert ToDict(v, ignorePrivate).items == items;
    case _ =>
  }

  /** Converting a second time changes nothing. */
  lemma ToDictIdempotent(v: Value, ignorePrivate: bool)
    ensures ToDict(ToDict(v, ignorePrivate), ignorePrivate) == ToDict(v, ignorePrivate)
  {
    PlainIsFixed(ToDict(v, ignorePrivate), ignorePrivate);
  }

  /** Ignoring private attributes drops exactly the names with a leading
      underscore: every other name is in the result either way. */
  lemma IgnorePrivateDropsOnlyPrivate(attrs: seq<(string, Value)>, name: string)
    requires exists i :: 0 <= i < |attrs| && attrs[i].0 == name
    ensures Str(name) in Keys(ToDict(Obj(attrs), true).entries) <==> !IsPrivate(name)
    ensures Str(name) in Keys(ToDict(Obj(attrs), false).entries)
  {
    var i :| 0 <= i < |attrs| && attrs[i].0 == name;
    assert Str(attrs[i].0) in KeptNames(attrs, false);
    if !IsPrivate(name) {
      assert Str(attrs[i].0) in KeptNames(attrs, true);
    }
  }
}

=== FILE: pattern_matcher.dfy ===
/** The optional response pattern shared by the TCP and external-script
    monitors: at most 128 characters of text that must compile, once, as a
    case-insensitive regular expression.  The regular-expression engine is a
    parameter: `compile` gives the compiled search of a source text, or None
    when `re.compile(source, flags=re.I)` raises. */
module PatternMatcher {
  import opened Common

  const MAX_MATCH_RE_LEN: nat := 128

  /** A compiled pattern: its source text and its (unanchored) search. */
  datatype Pattern = Pattern(source: string, search: string -> bool)

  datatype PatternError =
    | NotShortText(value: ConfigValue)   // not a str, or longer than MAX_MATCH_RE_LEN
    | DoesNotCompile(source: string)

  /** Validates `match_re`: None means no matching; anything else must be a
      short string that compiles. */
  function NewPattern(matchRe: ConfigValue, compile: string -> Option<string -> bool>): (r: Result<Option<Pattern>, PatternError>)
    ensures r.Ok? <==> matchRe.VNone? || (matchRe.VStr? && |matchRe.s| <= MAX_MATCH_RE_LEN && compile(matchRe.s).Some?)
    ensures r.Ok? && matchRe.VNone? ==> r.value == None
    ensures r.Ok? && matchRe.VStr? ==> r.value == Some(Pattern(matchRe.s, compile(matchRe.s).value))
    ensures !matchRe.VNone? && !(matchRe.VStr? && |matchRe.s| <= MAX_MATCH_RE_LEN) ==> r == Err(NotShortText(matchRe))
  {
    if matchRe.VNone? then Ok(None)
    else if !matchRe.VStr? || |matchRe.s| > MAX_MATCH_RE_LEN then Err(NotShortText(matchRe))
    else match compile(matchRe.s)
      case None => Err(DoesNotCompile(matchRe.s))
      case Some(search) => Ok(Some(Pattern(matchRe.s, search)))
  }

  /** The length bound is inclusive: 128 characters pass the length check,
      129 do not. */
  lemma LengthBoundary(compile: string -> Option<string -> bool>, s: string)
    requires |s| == MAX_MATCH_RE_LEN && compile(s).Some?
    ensures NewPattern(VStr(s), compile).Ok?
    ensures NewPattern(VStr(s + "x"), compile) == Err(NotShortText(VStr(s + "x")))
  {
  }
}

=== FILE: tcp_monitor.dfy ===
/** The TCP monitor (`TCP`): validated construction, and `run`, which
    connects a fresh deadline-budgeted socket, optionally completes a TLS
    handshake and sends a payload, then either passes at once (no pattern)
    or reads the response chunk by chunk until the pattern is found in
    everything read so far. */
module TcpMonitor {
  import opened Common
  import opened DeadlineSocket
  import opened PatternMatcher

  const MAX_SEND_STRING_LEN: nat := 256

  /** A validated TCP monitor. */
  datatype Monitor = Monitor(
    port: int,
    useTls: bool,
    verifyTls: bool,
    sendString: Option<string>,
    pattern: Option<Pattern>,
    sendBytes: Option<seq<byte>>,
    base: BaseConfig)

  datatype ConfigError =
    | PortInvalid(port: ConfigValue)
    | MatchReInvalid(e: PatternError)
    | SendStringInvalid(value: ConfigValue)

  predicate PortAccepted(port: ConfigValue)
  {
    port.IsInt() && 1 <= port.AsInt() <= 65535
  }

  predicate SendStringAccepted(sendString: ConfigValue)
  {
    sendString.VNone? || (sendString.VStr? && |sendString.s| <= MAX_SEND_STRING_LEN)
  }

  /** `TCP.__init__`: checks the port, then `match_re`, then `send_string`,
      and encodes the payload once.  `encode` is `str.encode()` (UTF-8). */
  function New(port: ConfigValue, useTls: bool, verifyTls: bool, sendString: ConfigValue, matchRe: ConfigValue,
               base: BaseConfig, compile: string -> Option<string -> bool>, encode: string -> seq<byte>)
    : (r: Result<Monitor, ConfigError>)
    ensures r.Ok? <==> PortAccepted(port) && NewPattern(matchRe, compile).Ok? && SendStringAccepted(sendString)
    ensures !PortAccepted(port) ==> r == Err(PortInvalid(port))
    ensures PortAccepted(port) && NewPattern(matchRe, compile).Err? ==> r == Err(MatchReInvalid(NewPattern(matchRe, compile).error))
    ensures PortAccepted(port) && NewPattern(matchRe, compile).Ok? && !SendStringAccepted(sendString) ==>
      r == Err(SendStringInvalid(sendString))
    ensures r.Ok? ==> 1 <= r.value.port <= 65535 && r.value.port == port.AsInt()
    ensures r.Ok? ==> r.value.useTls == useTls && r.value.verifyTls == verifyTls && r.value.base == base
    ensures r.Ok? ==> r.value.pattern == NewPattern(matchRe, compile).value
    ensures r.Ok? ==> (r.value.sendString.Some? <==> sendString.VStr?) && (r.value.sendBytes.Some? <==> sendString.VStr?)
    ensures r.Ok? && sendString.VStr? ==>
      r.value.sendString == Some(sendString.s) && |sendString.s| <= MAX_SEND_STRING_LEN &&
      r.value.sendBytes == Some(encode(sendString.s))
  {
    if !port.IsInt() || port.AsInt() < 1 || port.AsInt() > 65535 then Err(PortInvalid(port))
    else match NewPattern(matchRe, compile)
      case Err(e) => Err(MatchReInvalid(e))
      case Ok(pattern) =>
        if sendString.VNone? then
          Ok(Monitor(port.AsInt(), useTls, verifyTls, None, pattern, None, base))
        else if !sendString.VStr? || |sendString.s| > MAX_SEND_STRING_LEN then
          Err(SendStringInvalid(sendString))
        else
          Ok(Monitor(port.AsInt(), useTls, verifyTls, Some(sendString.s), pattern, Some(encode(sendString.s)), base))
  }

  /** What the network does during one `run`: an OSError raised when the
      socket is created (no IPv6 support, no descriptors left), if any, then
      the outcome of connect, of the TLS handshake, of sendall, of each recv
      in turn, and of the final close. */
  datatype Network = Network(
    create: Option<OsError>,
    connect: OsCall,
    handshake: TlsOutcome,
    send: OsCall,
    replies: seq<RecvOutcome>,
    close: CloseOutcome)

  /** The end of one `run`: it returned, raised MonitorFailed with a
      message, or let an OSError escape: one from creating the socket, which
      happens before the `try`, or a non-SSL one from the TLS handshake. */
  datatype RunResult = Passed | MonitorFailed(msg: string) | Escaped(e: OsError)

  /** The recv that fails once the peer has nothing more to say: a positive
      budget runs out and the socket times out.  The replies are finite, so
      a peer that keeps sending non-matching data for ever is not
      expressed. */
  const DeadlineExpired := OsError("TimeoutError", "timed out")

  /** The answer of the i-th recv; past the end of `replies` the peer sends
      nothing more and recv times out. */
  function ReplyAt(replies: seq<RecvOutcome>, i: nat): RecvOutcome
  {
    if i < |replies| then replies[i] else RecvFails(DeadlineExpired)
  }

  /** The response text accumulated from `replies`: each chunk is decoded on
      its own (`bytes.decode(errors='ignore')`) and appended. */
  function Response(replies: seq<RecvOutcome>, decode: seq<byte> -> string): (r: string)
  {
    if replies == [] then ""
    else
      var last := replies[|replies| - 1];
      Response(replies[..|replies| - 1], decode) + (if last.Received? then decode(last.data) else "")
  }

  /** The text read so far only grows: the text of the first `k` replies
      is a prefix of the text of all of them. */
  lemma {:induction false} ResponseGrows(replies: seq<RecvOutcome>, k: nat, decode: seq<byte> -> string)
    requires k <= |replies|
    ensures IsPrefix(Response(replies[..k], decode), Response(replies, decode))
    decreases |replies|
  {
    if k < |replies| {
      var init := replies[..|replies| - 1];
      assert init[..k] == replies[..k];
      ResponseGrows(init, k, decode);
      var last := replies[|replies| - 1];
      var tail := if last.Received? then decode(last.data) else "";
      assert Response(replies, decode) == Response(init, decode) + tail;
      var a := Response(replies[..k], decode);
      assert (Response(init, decode) + tail)[..|a|] == Response(init, decode)[..|a|];
    } else {
      assert replies[..k] == replies;
    }
  }

  /** The first `k` replies all carry data. */
  predicate Streaming(replies: seq<RecvOutcome>, k: nat)
  {
    k <= |replies| && forall j :: 0 <= j < k ==> replies[j].Received? && |replies[j].data| > 0
  }

  /** The pattern is found in the text of the first `k` data chunks. */
  predicate MatchesAt(replies: seq<RecvOutcome>, k: nat, search: string -> bool, decode: seq<byte> -> string)
  {
    1 <= k && Streaming(replies, k) && search(Response(replies[..k], decode))
  }

  /** The read loop ends without a match at the `j`-th recv: the first `j`
      recvs brought data, none of the texts read so far matched, and the
      `j`-th recv fails or finds the connection closed. */
  predicate StopsAt(replies: seq<RecvOutcome>, j: nat, search: string -> bool, decode: seq<byte> -> string)
  {
    && Streaming(replies, j)
    && (forall k :: 1 <= k <= j ==> !MatchesAt(replies, k, search, decode))
    && !(ReplyAt(replies, j).Received? && |ReplyAt(replies, j).data| > 0)
  }

  const NO_DATA := "no data received from the peer"
  const REMOTE_CLOSED := "remote closed the connection"
  const ERROR_MISS := "failed to match the regexp within the timeout, got "
  const SHOWN := ", response(up to 512 chars): "
  const CLOSED_MISS := ", failed to match the regexp in the response(up to 512 chars): "

  /** The message of MonitorFailed when the read loop ends with `response`
      read and `reply` as the last answer of recv. */
  function ReadFailure(response: string, reply: RecvOutcome): (r: string)
  {
    match reply
    case RecvFails(e) =>
      var err := e.Text() + " during socket.recv()";
      if response == "" then "got " + err + ", " + NO_DATA
      else ERROR_MISS + err + SHOWN + Take(response, 512)
    case Received(_, _) =>
      if response == "" then REMOTE_CLOSED + ", " + NO_DATA
      else REMOTE_CLOSED + CLOSED_MISS + Take(response, 512)
  }

  lemma PrefixOfConcat(a: string, b: string)
    ensures IsPrefix(a, a + b)
  {
    assert (a + b)[..|a|] == a;
  }

  lemma SuffixOfConcat(a: string, b: string)
    ensures IsSuffix(b, a + b)
  {
    assert (a + b)[|a + b| - |b|..] == b;
  }

  /** The failure message tells a clean close from an error, says "no data
      received" when nothing was read, and otherwise ends with at most the
      first 512 characters of what was read; apart from the error's own
      text it is never longer than 613 characters. */
  lemma ReadFailureShape(response: string, reply: RecvOutcome)
    ensures reply.Received? ==> IsPrefix(REMOTE_CLOSED, ReadFailure(response, reply))
    ensures reply.RecvFails? ==> IsPrefix(if response == "" then "got " else ERROR_MISS, ReadFailure(response, reply))
    ensures response == "" ==> IsSuffix(NO_DATA, ReadFailure(response, reply))
    ensures response != "" ==>
      var shown := Take(response, 512);
      IsSuffix(shown, ReadFailure(response, reply)) && |shown| <= 512 && IsPrefix(shown, response)
    ensures reply.Received? ==> |ReadFailure(response, reply)| <= 603
    ensures reply.RecvFails? ==> |ReadFailure(response, reply)| <= |reply.e.Text()| + 613
  {
    match reply
    case RecvFails(e) => ErrorFailureShape(response, e);
    case Received(_, _) => ClosedFailureShape(response, reply);
  }

  /** `ReadFailureShape` for a recv that raised `e`. */
  lemma ErrorFailureShape(response: string, e: OsError)
    ensures IsPrefix(if response == "" then "got " else ERROR_MISS, ReadFailure(response, RecvFails(e)))
    ensures response == "" ==> IsSuffix(NO_DATA, ReadFailure(response, RecvFails(e)))
    ensures response != "" ==> IsSuffix(Take(response, 512), ReadFailure(response, RecvFails(e)))
    ensures |ReadFailure(response, RecvFails(e))| <= |e.Text()| + 613
  {
    var msg := ReadFailure(response, RecvFails(e));
    var err := e.Text() + " during socket.recv()";
    if response == "" {
      var tail := err + ", " + NO_DATA;
      assert msg == "got " + tail;
      PrefixOfConcat("got ", tail);
      SuffixOfConcat("got " + err + ", ", NO_DATA);
    } else {
      var shown := Take(response, 512);
      var tail := err + SHOWN + shown;
      assert msg == ERROR_MISS + tail;
      PrefixOfConcat(ERROR_MISS, tail);
      SuffixOfConcat(ERROR_MISS + err + SHOWN, shown);
    }
  }

  /** `ReadFailureShape` for a recv that found the connection closed. */
  lemma ClosedFailureShape(response: string, reply: RecvOutcome)
    requires reply.Received?
    ensures IsPrefix(REMOTE_CLOSED, ReadFailure(response, reply))
    ensures response == "" ==> IsSuffix(NO_DATA, ReadFailure(response, reply))
    ensures response != "" ==> IsSuffix(Take(response, 512), ReadFailure(response, reply))
    ensures |ReadFailure(response, reply)| <= 603
  {
    var msg := ReadFailure(response, reply);
    if response == "" {
      assert msg == REMOTE_CLOSED + (", " + NO_DATA);
      PrefixOfConcat(REMOTE_CLOSED, ", " + NO_DATA);
      SuffixOfConcat(REMOTE_CLOSED + ", ", NO_DATA);
    } else {
      var shown := Take(response, 512);
      assert msg == REMOTE_CLOSED + (CLOSED_MISS + shown);
      PrefixOfConcat(REMOTE_CLOSED, CLOSED_MISS + shown);
      SuffixOfConcat(REMOTE_CLOSED + CLOSED_MISS, shown);
    }
  }

  /** Connect, the handshake when TLS is on, and sendall when there is a
      payload all succeed, so `run` goes on to close or to read. */
  predicate SetupSucceeds(m: Monitor, net: Network)
  {
    && net.create.None?
    && net.connect.Done?
    && (m.useTls ==> net.handshake.Handshaken?)
    && (m.sendBytes.Some? ==> net.send.Done?)
  }

  lemma ResponseStep(replies: seq<RecvOutcome>, i: nat, decode: seq<byte> -> string)
    requires i < |replies| && replies[i].Received?
    ensures Response(replies[..i + 1], decode) == Response(replies[..i], decode) + decode(replies[i].data)
  {
    assert replies[..i + 1][..i] == replies[..i];
  }

  /** `TCP.run(dst_ip)`.  `released` tells whether no socket is left that
      `run` or `TCPSocket` itself has not closed (none was made when
      creation fails); `recvCalls` counts the recv calls made. */
  method Run(m: Monitor, dstIp: string, net: Network, decode: seq<byte> -> string)
    returns (r: RunResult, released: bool, ghost recvCalls: nat)
    requires m.sendString.Some? <==> m.sendBytes.Some?
    // creating the socket fails outside the try: the OSError escapes
    ensures net.create.Some? ==> r == Escaped(net.create.value) && released && recvCalls == 0
    // connect, handshake, sendall: each failure ends the run before any read
    ensures net.create.None? && net.connect.Fails? ==>
      r == MonitorFailed(net.connect.e.Text() + " during socket.connect()") && released && recvCalls == 0
    ensures net.create.None? && net.connect.Done? && m.useTls && net.handshake.SslFails? ==>
      r == MonitorFailed("SSL error: " + net.handshake.detail + " during TLS handshake") && released && recvCalls == 0
    ensures net.create.None? && net.connect.Done? && m.useTls && net.handshake.OtherOsFails? ==>
      r == Escaped(net.handshake.e) && !released && recvCalls == 0
    ensures net.create.None? && net.connect.Done? && (m.useTls ==> net.handshake.Handshaken?) && m.sendBytes.Some? && net.send.Fails? ==>
      r == MonitorFailed(net.send.e.Text() + " during socket.sendall()") && released && recvCalls == 0
    ensures r.Escaped? ==> net.create.Some? || (m.useTls && net.handshake.OtherOsFails?)
    // no pattern: close and pass without reading
    ensures SetupSucceeds(m, net) && m.pattern.None? ==>
      r == Passed && recvCalls == 0 && released == !net.close.ShutdownFails?
    // a pattern: pass exactly when the text read so far matches after some chunk
    ensures SetupSucceeds(m, net) && m.pattern.Some? ==>
      (r == Passed <==> exists k :: MatchesAt(net.replies, k, m.pattern.value.search, decode))
    ensures SetupSucceeds(m, net) && m.pattern.Some? && r == Passed ==>
      && MatchesAt(net.replies, recvCalls, m.pattern.value.search, decode)
      && (forall k :: 1 <= k < recvCalls ==> !MatchesAt(net.replies, k, m.pattern.value.search, decode))
      && released == !net.close.ShutdownFails?
    ensures SetupSucceeds(m, net) && m.pattern.Some? && r != Passed ==>
      && recvCalls >= 1
      && StopsAt(net.replies, recvCalls - 1, m.pattern.value.search, decode)
      && r == MonitorFailed(ReadFailure(Response(net.replies[..recvCalls - 1], decode), ReplyAt(net.replies, recvCalls - 1)))
      && released == ReplyAt(net.replies, recvCalls - 1).RecvFails?
  {
    if net.create.Some? {
      return Escaped(net.create.value), true, 0;
    }
    r, released, recvCalls := RunConnected(m, dstIp, net, decode);
  }

  /** `run` once the socket exists: connect, the optional handshake and
      send, then close or read. */
  method RunConnected(m: Monitor, dstIp: string, net: Network, decode: seq<byte> -> string)
    returns (r: RunResult, released: bool, ghost recvCalls: nat)
    requires m.sendString.Some? <==> m.sendBytes.Some?
    requires net.create.None?
    // connect, handshake, sendall: each failure ends the run before any read
    ensures net.connect.Fails? ==>
      r == MonitorFailed(net.connect.e.Text() + " during socket.connect()") && released && recvCalls == 0
    ensures net.connect.Done? && m.useTls && net.handshake.SslFails? ==>
      r == MonitorFailed("SSL error: " + net.handshake.detail + " during TLS handshake") && released && recvCalls == 0
    ensures net.connect.Done? && m.useTls && net.handshake.OtherOsFails? ==>
      r == Escaped(net.handshake.e) && !released && recvCalls == 0
    ensures net.connect.Done? && (m.useTls ==> net.handshake.Handshaken?) && m.sendBytes.Some? && net.send.Fails? ==>
      r == MonitorFailed(net.send.e.Text() + " during socket.sendall()") && released && recvCalls == 0
    ensures r.Escaped? ==> m.useTls && net.handshake.OtherOsFails?
    // no pattern: close and pass without reading
    ensures SetupSucceeds(m, net) && m.pattern.None? ==>
      r == Passed && recvCalls == 0 && released == !net.close.ShutdownFails?
    // a pattern: pass exactly when the text read so far matches after some chunk
    ensures SetupSucceeds(m, net) && m.pattern.Some? ==>
      (r == Passed <==> exists k :: MatchesAt(net.replies, k, m.pattern.value.search, decode))
    ensures SetupSucceeds(m, net) && m.pattern.Some? && r == Passed ==>
      && MatchesAt(net.replies, recvCalls, m.pattern.value.search, decode)
      && (forall k :: 1 <= k < recvCalls ==> !MatchesAt(net.replies, k, m.pattern.value.search, decode))
      && released == !net.close.ShutdownFails?
    ensures SetupSucceeds(m, net) && m.pattern.Some? && r != Passed ==>
      && recvCalls >= 1
      && StopsAt(net.replies, recvCalls - 1, m.pattern.value.search, decode)
      && r == MonitorFailed(ReadFailure(Response(net.replies[..recvCalls - 1], decode), ReplyAt(net.replies, recvCalls - 1)))
      && released == ReplyAt(net.replies, recvCalls - 1).RecvFails?
  {
    var sock := new TCPSocket(dstIp, m.port, m.base.timeout, true);
    var failure := sock.Connect(net.connect);
    if failure.Some? {
      return MonitorFailed(failure.value.msg), sock.closed, sock.recvCalls;
    }
    if m.useTls {
      failure := sock.WrapSsl(net.handshake);
      if failure.Some? {
        match failure.value
        case ProtocolError(msg) =>
          return MonitorFailed(msg), sock.closed, sock.recvCalls;
        case UncaughtOsError(e) =>
          return Escaped(e), sock.closed, sock.recvCalls;
      }
    }
    if m.sendBytes.Some? {
      failure := sock.SendAll(m.sendBytes.value, net.send);
      if failure.Some? {
        return MonitorFailed(failure.value.msg), sock.closed, sock.recvCalls;
      }
    }
    assert SetupSucceeds(m, net);

    if m.pattern.None? {
      sock.Close(net.close);
      return Passed, sock.closed, sock.recvCalls;
    }

    r, released, recvCalls := ReadUntilMatch(sock, m.pattern.value.search, net, decode);
    if r != Passed {
      NoMatchBefore(net.replies, recvCalls - 1, m.pattern.value.search, decode);
    }
  }

  /** The read loop of `run` (a pattern is configured and setup succeeded):
      receive, append the decoded chunk, search everything read so far. */
  method ReadUntilMatch(sock: TCPSocket, search: string -> bool, net: Network, decode: seq<byte> -> string)
    returns (r: RunResult, released: bool, ghost recvCalls: nat)
    requires sock.Valid() && !sock.closed
    modifies sock
    ensures recvCalls == sock.recvCalls - old(sock.recvCalls) && released == sock.closed
    ensures r == Passed ==>
      && MatchesAt(net.replies, recvCalls, search, decode)
      && (forall k :: 1 <= k < recvCalls ==> !MatchesAt(net.replies, k, search, decode))
      && released == !net.close.ShutdownFails?
    ensures r != Passed ==>
      && recvCalls >= 1
      && StopsAt(net.replies, recvCalls - 1, search, decode)
      && r == MonitorFailed(ReadFailure(Response(net.replies[..recvCalls - 1], decode), ReplyAt(net.replies, recvCalls - 1)))
      && released == ReplyAt(net.replies, recvCalls - 1).RecvFails?
  {
    var response := "";
    var i := 0;
    while true
      invariant sock.Valid() && !sock.closed
      invariant Streaming(net.replies, i)
      invariant response == Response(net.replies[..i], decode)
      invariant forall k :: 1 <= k <= i ==> !MatchesAt(net.replies, k, search, decode)
      invariant sock.recvCalls == old(sock.recvCalls) + i
      decreases |net.replies| - i
    {
      var reply := ReplyAt(net.replies, i);
      var got := sock.Recv(reply);
      if got.Err? {
        StopHere(net.replies, i, search, decode);
        return MonitorFailed(ReadFailure(response, reply)), sock.closed, i + 1;
      }
      if got.value == [] {
        StopHere(net.replies, i, search, decode);
        return MonitorFailed(ReadFailure(response, reply)), sock.closed, i + 1;
      }
      ReadOn(net.replies, i, decode);
      response := response + decode(got.value);
      if search(response) {
        sock.Close(net.close);
        assert MatchesAt(net.replies, i + 1, search, decode);
        return Passed, sock.closed, i + 1;
      }
      NoMatchYet(net.replies, i, search, decode);
      i := i + 1;
    }
  }

  /** The loop stops at `i`: no prefix of the replies matches. */
  lemma StopHere(replies: seq<RecvOutcome>, i: nat, search: string -> bool, decode: seq<byte> -> string)
    requires Streaming(replies, i)
    requires forall k :: 1 <= k <= i ==> !MatchesAt(replies, k, search, decode)
    requires !(ReplyAt(replies, i).Received? && |ReplyAt(replies, i).data| > 0)
    ensures StopsAt(replies, i, search, decode)
    ensures forall k: nat :: !MatchesAt(replies, k, search, decode)
  {
    NoMatchBefore(replies, i, search, decode);
  }

  /** Recv `i` brought data: the stream goes on and its text grows by it. */
  lemma ReadOn(replies: seq<RecvOutcome>, i: nat, decode: seq<byte> -> string)
    requires Streaming(replies, i)
    requires i < |replies| && replies[i].Received? && |replies[i].data| > 0
    ensures Streaming(replies, i + 1)
    ensures Response(replies[..i + 1], decode) == Response(replies[..i], decode) + decode(replies[i].data)
  {
    ResponseStep(replies, i, decode);
  }

  /** The text after recv `i` does not match either. */
  lemma NoMatchYet(replies: seq<RecvOutcome>, i: nat, search: string -> bool, decode: seq<byte> -> string)
    requires i < |replies|
    requires forall k :: 1 <= k <= i ==> !MatchesAt(replies, k, search, decode)
    requires !search(Response(replies[..i + 1], decode))
    ensures forall k :: 1 <= k <= i + 1 ==> !MatchesAt(replies, k, search, decode)
  {
  }

  /** When the loop stops at `j`, no prefix of the replies, of any length,
      is a match. */
  lemma NoMatchBefore(replies: seq<RecvOutcome>, j: nat, search: string -> bool, decode: seq<byte> -> string)
    requires StopsAt(replies, j, search, decode)
    ensures forall k: nat :: !MatchesAt(replies, k, search, decode)
  {
    forall k: nat | k > j
      ensures !Streaming(replies, k)
    {
      if j < |replies| {
        assert !(replies[j].Received? && |replies[j].data| > 0);
      }
    }
  }
}
